=== FILE: README.md ===
# Two hand-written Java containers, modelled in Dafny

This project models two containers from the `com.hongdeyan` sources:

- `EgdwAvlTree`, an AVL map over `Comparable` keys. It is a binary search
  tree whose nodes carry a stored `height`. It has a balance factor
  (`getBanlance`), two single rotations (`leftLeft` promotes the left child,
  `rightRight` the right one), and recursive `addElement` and `removeElement`
  that rebalance on the way back up. It also has the lookups `isExsits`,
  `get` and `set`, and a `size` counter.
- `EgdwArrayList`, a growable array list. It is an `Object[]` plus a `size`
  counter, with append, insert and remove at an index, and the shifting
  these need. It grows to `(int) (size * 1.5)` when full and halves its
  capacity once `capacity / size > 4`.

Both are modelled as immutable values:

- a method call becomes a function from the old state to the new state and
  the return value;
- a thrown exception becomes `Err` carrying the exception's class
  (module `Outcomes`);
- a Java `null` becomes `None`.

The model follows the code as written, including its defects. Where the code
breaks the textbook invariants, the model proves what does hold and fixes the
rest with traces: lemmas that evaluate the model on fixed inputs.

The AVL map (`avl_tree.dfy`, module `AvlTree`):

- Nodes keep their stored height. Only the insertion unwind rewrites it.
  Rotations and removal never do, so heights go stale.
- The double-rotation branches rotate the wrong way. The left-right case can
  throw `NullPointerException`.
- Re-adding a present key can throw `NullPointerException` too. The unwind
  re-derives the stored heights on the search path from stale children, and
  may then rotate around a missing child.
- The one-child removal copies the child's key but not its value, and drops
  the child's other subtree. The two-children removal keeps the removed key's
  value under the predecessor's key.
- `remove` discards the rebuilt subtree. The map keeps its handle on the old
  root node, wherever the last rotation put it.

Ghost views state what holds:

- `Keys`, `InOrder`, `Bindings`, `IsBST`;
- `TrueHeight`, `HeightsExact`, `Balanced`.

The traces of `avl_traces.dfy` (module `AvlTraces`) pin down the broken cases.
Keys are inserted with themselves as values.

The array list (`array_list.dfy`, module `ArrayList`):

- A list is `List(slots, size)`. `slots` is the backing array, so its length
  is the capacity.
- `Shape` is what every state reached without a caught exception satisfies.
  The counter can reach -1: `removeIndex(0)` on an empty list passes the index
  check.
- `Valid` is the intended state. `Contents` is the slots below the counter.
- Closed-form functions give every operation. The copy, shift and search
  loops of the source are methods, proved to compute the same results.
- `array_list_traces.dfy` (module `ArrayListTraces`) pins down the boundary
  defects:
  - `get` at the size;
  - `removeIndex` on a full list;
  - `removeIndex` at the size, which drops the last element from the contents
    but leaves it in its slot;
  - growth from capacity 0 or 1;
  - `getOpcaity` returning the size;
  - shrinking.

Source cells below are paths relative to the repository root, with line ranges.

## Model

| member | source | states |
|---|---|---|
| AvlTree.Balance | src/com/hongdeyan/avl/EgdwAvlTree.java:136-146 | succeeds exactly on a node; a null node throws NullPointerException |
| AvlTree.BalanceOfExactHeights | src/com/hongdeyan/avl/EgdwAvlTree.java:136-146 | with exact stored heights the balance factor is the true left-minus-right height difference, and lies in [-1, 1] on a balanced node |
| AvlTree.FixHeight | src/com/hongdeyan/avl/EgdwAvlTree.java:96-104 | changes only the stored height; a node with a child gets one more than the larger stored child height, an absent child counting 0; a childless node is returned unchanged, so its height is exact only if it is 1; the height is exact when the children's heights are exact |
| AvlTree.LeftLeft | src/com/hongdeyan/avl/EgdwAvlTree.java:154-160 | succeeds exactly when the node and its left child exist; the result holds the same nodes, slots and in-order key sequence, so search order and key set are kept; the promoted node and the demoted root keep their stored heights |
| AvlTree.RightRight | src/com/hongdeyan/avl/EgdwAvlTree.java:168-174 | mirror of LeftLeft for the right child |
| AvlTree.Rebalance | src/com/hongdeyan/avl/EgdwAvlTree.java:108-127 | the node stays in place exactly when its stored balance is within [-1, 1]; otherwise it is relinked by rotations that keep keys, bindings and search order, and the tag says where the original node ended up; the only exception is NullPointerException |
| AvlTree.Settle | src/com/hongdeyan/avl/EgdwAvlTree.java:95-127 | one unwind step keeps keys, bindings and search order, or throws NullPointerException |
| AvlTree.AddElement | src/com/hongdeyan/avl/EgdwAvlTree.java:83-128 | the result's key set is the old one plus the key; exactly one key is counted when the key was absent; on a search tree a present key counts nothing and search order is kept; only NullPointerException is thrown |
| AvlTree.AddElementBindings | src/com/hongdeyan/avl/EgdwAvlTree.java:83-93 | insertion adds exactly the new key's binding when it counts one, and otherwise changes no binding (an existing value is never replaced) |
| AvlTree.Add | src/com/hongdeyan/avl/EgdwAvlTree.java:76-80 | reports true whenever the add does not throw, and then the key set gains the key; on a search tree the order is kept and the size rises by one exactly for an absent key |
| AvlTree.AddAbsentKey | src/com/hongdeyan/avl/EgdwAvlTree.java:76-93 | on a search tree, adding an absent key adds one to the size, adds the key, finds it with the new value and leaves every other lookup unchanged |
| AvlTree.AddPresentKey | src/com/hongdeyan/avl/EgdwAvlTree.java:76-93 | on a search tree, adding a present key, when the add does not throw, leaves the size, the key set and every lookup unchanged, and still reports true |
| AvlTree.ExistsElement | src/com/hongdeyan/avl/EgdwAvlTree.java:176-196 | true only for a stored key; on a search tree, true exactly for the stored keys |
| AvlTree.GetElement | src/com/hongdeyan/avl/EgdwAvlTree.java:349-366 | a found value is bound to the key in some node; on a search tree a value is found exactly for the stored keys |
| AvlTree.GetFindsBinding | src/com/hongdeyan/avl/EgdwAvlTree.java:354-366 | on a search tree, the lookup returns v exactly when (k, v) is a binding of the tree |
| AvlTree.SameBindingsSameLookups | src/com/hongdeyan/avl/EgdwAvlTree.java:354-366 | two search trees with the same bindings for a key answer the same lookup for it |
| AvlTree.SetElement | src/com/hongdeyan/avl/EgdwAvlTree.java:205-219 | the shape, keys and stored heights stay; on a search tree it reports true exactly for a stored key; afterwards the key's lookup gives the new value and every other lookup is unchanged; a false report changes nothing |
| AvlTree.SkeletonKeepsKeys | src/com/hongdeyan/avl/EgdwAvlTree.java:205-219 | trees with equal shape, keys and heights have the same keys, in-order sequence, node count and search order |
| AvlTree.Set | src/com/hongdeyan/avl/EgdwAvlTree.java:199-202 | the size and key set are unchanged and search order is kept; on a search tree it reports true exactly for a stored key, after which the key's lookup gives the new value; every other lookup, the shape and the stored heights are unchanged |
| AvlTree.FindBiggest | src/com/hongdeyan/avl/EgdwAvlTree.java:297-306 | a null start throws UnsatisfiedLinkError; otherwise the key found is in the tree, and on a search tree it is the largest key |
| AvlTree.RemoveElement | src/com/hongdeyan/avl/EgdwAvlTree.java:228-289 | an absent key throws NoSuchElementException ("node not found"), and that and NullPointerException are the only exceptions; a success counts one key off and leaves no key that was not there; null is returned exactly when a lone leaf holding the key was removed; the original node, recognised by its value and stored height (removal changes neither), is the returned root when no rotation ran last, and its right (after leftLeft) or left (after rightRight) child otherwise |
| AvlTree.RemoveElementKeepsSearchOrder | src/com/hongdeyan/avl/EgdwAvlTree.java:228-264 | on a search tree, a present key is never reported missing, and a successful removal leaves a search tree without the key |
| AvlTree.Remove | src/com/hongdeyan/avl/EgdwAvlTree.java:222-225 | an absent key throws, and on a search tree a present one is never reported missing; success drops the size by one; it reports false exactly when the root was a lone leaf holding the key, and then the root handle is unchanged; the kept handle (`RootHandle`) is always the original root node (same value and stored height, whatever key it now holds); it holds no new key, and on a search tree it is a search tree, without the key when true is reported |
| AvlTree.RemoveOnlyKey | src/com/hongdeyan/avl/EgdwAvlTree.java:222-246 | on a one-node map, removing its key reports false and drops the size by one, yet the key is still found |
| AvlTraces.AddIntoEmpty | src/com/hongdeyan/avl/EgdwAvlTree.java:28-33 | the first key becomes a leaf of stored height 1 and the size becomes 1 |
| AvlTraces.AscendingThreeLeavesStaleHeight | src/com/hongdeyan/avl/EgdwAvlTree.java:114-116 | adding 10, 20, 30 gives root 20 with children 10 and 30, but leaf 10 stores height 3, so heights are not exact |
| AvlTraces.LeftRightCaseThrows | src/com/hongdeyan/avl/EgdwAvlTree.java:118-120 | adding 30, 10, 20 throws NullPointerException: the left-right case applies leftLeft to node 10, which has no left child |
| AvlTraces.AscendingSixUnbalanced | src/com/hongdeyan/avl/EgdwAvlTree.java:83-128 | adding 10 to 60 in ascending order gives a tree whose root has subtrees of true heights 1 and 3 |
| AvlTraces.AscendingSixShape | src/com/hongdeyan/avl/EgdwAvlTree.java:83-128 | that tree is not balanced |
| AvlTraces.TwentyFirstUnbalanced | src/com/hongdeyan/avl/EgdwAvlTree.java:122-126 | adding 20, 10, 30, 40, 50, 60 ends in a right-left case that promotes 10 to a root without a left subtree |
| AvlTraces.TwentyFirstShape | src/com/hongdeyan/avl/EgdwAvlTree.java:122-126 | that tree is not balanced |
| AvlTraces.DuplicateAddThrows | src/com/hongdeyan/avl/EgdwAvlTree.java:83-128 | re-adding the present key 20 to the six-key tree built from 20, 10, 30, 40, 50, 60 throws NullPointerException: the unwind at 20 re-derives a left lean from stale heights and `leftLeft` finds no left child |
| AvlTraces.DuplicateAddKeepsValue | src/com/hongdeyan/avl/EgdwAvlTree.java:88-93 | adding a present key keeps the old value and the size, and reports true |
| AvlTraces.RemoveLoneRoot | src/com/hongdeyan/avl/EgdwAvlTree.java:222-246 | removing the only key reports false and drops the size to 0, while the root handle still holds the key |
| AvlTraces.RemoveLoneRootTwice | src/com/hongdeyan/avl/EgdwAvlTree.java:222-246 | removing that key a second time succeeds again and drops the size to -1 |
| AvlTraces.RemoveThirtyRotates | src/com/hongdeyan/avl/EgdwAvlTree.java:268-272 | removing 30 from the tree built from 10, 20, 30 ends in leftLeft at the root |
| AvlTraces.RemoveKeepsDemotedRoot | src/com/hongdeyan/avl/EgdwAvlTree.java:222-225 | after that removal the handle keeps the demoted node 20: key 10 is lost while the size says 2 |
| AvlTraces.RemoveTwoChildrenKeepsOldValue | src/com/hongdeyan/avl/EgdwAvlTree.java:257-264 | removing root 20 of that tree writes key 10 into it but keeps value 20, so key 10 maps to 20 |
| AvlTraces.RemoveAbsentKeyThrows | src/com/hongdeyan/avl/EgdwAvlTree.java:228-231 | removing an absent key throws NoSuchElementException |
| AvlTraces.RemoveTwentyBelowRoot | src/com/hongdeyan/avl/EgdwAvlTree.java:247-251 | the one-child removal takes the child's key 50 with the old value 20 and keeps only the child's right subtree |
| AvlTraces.RemoveTwentyRotates | src/com/hongdeyan/avl/EgdwAvlTree.java:273-276 | the unwind at the root then takes the right-right branch |
| AvlTraces.RemoveOneChildDropsSubtree | src/com/hongdeyan/avl/EgdwAvlTree.java:222-256 | keys 30 and 40 vanish from the rebuilt tree, the handle is left on leaf 10, and the size drops by one |
| ArrayList.New | src/com/hongdeyan/list/EgdwArrayList.java:29-34 | a negative capacity throws IllegalArgumentException; otherwise an empty valid list with that capacity and null slots |
| ArrayList.NewDefault | src/com/hongdeyan/list/EgdwArrayList.java:36-39 | an empty valid list of capacity 10 |
| ArrayList.Size | src/com/hongdeyan/list/EgdwArrayList.java:46-48 | on a valid list, the number of elements |
| ArrayList.IsEmpty | src/com/hongdeyan/list/EgdwArrayList.java:64-66 | on a valid list, true exactly when there are no elements |
| ArrayList.GetOpcaity | src/com/hongdeyan/list/EgdwArrayList.java:55-57 | reports the number of elements, which equals the capacity only when the list is full |
| ArrayList.Get | src/com/hongdeyan/list/EgdwArrayList.java:74-82 | IllegalArgumentException exactly for an index below 0 or above the counter; below the counter on a valid list it returns that element; the index equal to the counter reads the slot past the elements, throwing only on a full list |
| ArrayList.GrowCapacity | src/com/hongdeyan/list/EgdwArrayList.java:146 | the new capacity is 3 / 2 times the old one rounded down, saturated at the largest int; so it is never smaller, and larger exactly when the old one is at least 2 and below the largest int |
| ArrayList.Grow | src/com/hongdeyan/list/EgdwArrayList.java:145-155 | the new array has the grown capacity, holds every old slot in place, and has null slots after them |
| ArrayList.GrowCopy | src/com/hongdeyan/list/EgdwArrayList.java:145-155 | the copy loop yields the grown list |
| ArrayList.EnsureCapacity | src/com/hongdeyan/list/EgdwArrayList.java:112-118 | a list with a free slot is unchanged; a full one grows; afterwards there is a free slot exactly when there was one or the capacity was at least 2 and below the largest int; the elements are kept |
| ArrayList.Decline | src/com/hongdeyan/list/EgdwArrayList.java:133-140 | half the capacity, the same elements, null slots after them |
| ArrayList.DeclineCopy | src/com/hongdeyan/list/EgdwArrayList.java:133-140 | the copy loop yields the declined list |
| ArrayList.HalfHoldsSize | src/com/hongdeyan/list/EgdwArrayList.java:124 | when capacity / size exceeds 4, the size fits in half the capacity with a slot to spare |
| ArrayList.ReleasedCapacity | src/com/hongdeyan/list/EgdwArrayList.java:123-140 | the capacity after the release check: it shrinks, to half, exactly when the size is positive and capacity / size exceeds 4 |
| ArrayList.Release | src/com/hongdeyan/list/EgdwArrayList.java:123-128 | the capacity halves exactly when the size is positive and capacity / size exceeds 4, and the list is otherwise unchanged; the elements are kept and still fit, and a null slot just past them stays null |
| ArrayList.AddLast | src/com/hongdeyan/list/EgdwArrayList.java:102-107 | succeeds exactly when the counter is not negative and there is or can be made a free slot; it returns the old counter, raises the counter by one, and on a valid list appends the element; only ArrayIndexOutOfBoundsException is thrown |
| ArrayList.Add | src/com/hongdeyan/list/EgdwArrayList.java:90-94 | returns the old counter and raises the counter by one |
| ArrayList.AddIsAddLast | src/com/hongdeyan/list/EgdwArrayList.java:90-107 | the extra capacity check of add(element) makes it behave exactly like addLast |
| ArrayList.InsertedSlots | src/com/hongdeyan/list/EgdwArrayList.java:169-172 | the slots before the index are kept, the element sits at the index, the slots up to the counter move up by one, the rest are kept |
| ArrayList.Insert | src/com/hongdeyan/list/EgdwArrayList.java:164-176 | IllegalArgumentException exactly for an index below 0 or above the counter; for an index in range it succeeds exactly when there is or can be made a free slot; it reports true, raises the counter by one, leaves the capacity grown exactly when the list was full, and on a valid list the elements become the prefix, the element, then the rest |
| ArrayList.InsertShift | src/com/hongdeyan/list/EgdwArrayList.java:164-176 | the shift loop computes the same result as Insert |
| ArrayList.Set | src/com/hongdeyan/list/EgdwArrayList.java:185-192 | IllegalArgumentException exactly for an index above the counter; otherwise the write succeeds exactly inside the array, stores the element at the index, and leaves every other slot, the counter and the capacity as they were |
| ArrayList.SetThenGet | src/com/hongdeyan/list/EgdwArrayList.java:185-192 | get at the index of a successful set returns the element written |
| ArrayList.DropLast | src/com/hongdeyan/list/EgdwArrayList.java:202 | the counter drops by one, the slot just past the remaining elements is nulled, every other slot and the capacity stay, and the elements lose their last one |
| ArrayList.Pop | src/com/hongdeyan/list/EgdwArrayList.java:199-207 | always reports true; an empty list is unchanged; otherwise the counter drops by one, the last element is gone, its slot is null, and the capacity is the released capacity for the new size |
| ArrayList.RemovedSlots | src/com/hongdeyan/list/EgdwArrayList.java:235-239 | the slots before the index are kept, those up to the counter move down by one, the slot at the counter is nulled, the rest are kept |
| ArrayList.RemoveIndex | src/com/hongdeyan/list/EgdwArrayList.java:231-244 | IllegalArgumentException exactly for an index below 0 or above the counter; success exactly when the index is in range and the list is not full; it returns the slot at the index, drops the counter by one and leaves the released capacity for the new size; below the counter on a valid list it removes exactly that element |
| ArrayList.RemovedContents | src/com/hongdeyan/list/EgdwArrayList.java:235-240 | the shifted slots seen as elements: the element at the index is gone and the others keep their order |
| ArrayList.RemoveShift | src/com/hongdeyan/list/EgdwArrayList.java:231-244 | the shift loop computes the same result as RemoveIndex |
| ArrayList.Remove | src/com/hongdeyan/list/EgdwArrayList.java:215-222 | on a valid list, removes the first element equal to the argument through removeIndex, or returns null and changes nothing when there is none; NullPointerException only when a null slot lies below the counter |
| ArrayList.RemoveLast | src/com/hongdeyan/list/EgdwArrayList.java:247-257 | throws NoSuchElementException exactly when the counter is not positive; otherwise returns the last element, drops the counter by one, nulls its slot, keeps the other elements and leaves the released capacity for the new size |
| ArrayList.OperationsKeepReachable | src/com/hongdeyan/list/EgdwArrayList.java:102-257 | addLast, add at an index, set, pop, removeIndex and removeLast keep a list that is valid, or whose counter is -1, in one of those two states |
| ArrayList.AddLastThenRemoveLast | src/com/hongdeyan/list/EgdwArrayList.java:247-257 | removing the last element after appending it returns the element and restores the elements |
| ArrayList.InsertThenRemoveIndex | src/com/hongdeyan/list/EgdwArrayList.java:231-244 | removing at the index of an insertion returns the element and restores the elements, except when the insertion filled the list, where the removal throws |
| ArrayList.Clear | src/com/hongdeyan/list/EgdwArrayList.java:279-285 | the result is a valid empty list with the same capacity; the slots below the old counter are nulled and the others are kept |
| ArrayList.FirstIndex | src/com/hongdeyan/list/EgdwArrayList.java:293-300 | -1 exactly when the value is absent; otherwise a position holding it with no earlier one |
| ArrayList.IndexOf | src/com/hongdeyan/list/EgdwArrayList.java:293-300 | on a valid list, the least position of the element, or -1; NullPointerException only when a null slot lies below the counter |
| ArrayList.Contains | src/com/hongdeyan/list/EgdwArrayList.java:266-273 | on a valid list, true exactly when the element is held, that is, exactly when its first position is not -1 |
| ArrayListTraces.CapacityReportsSize | src/com/hongdeyan/list/EgdwArrayList.java:55-57 | a fresh default list reports 0 as its capacity while it has 10 slots |
| ArrayListTraces.GrowthFromOneStalls | src/com/hongdeyan/list/EgdwArrayList.java:145-146 | with capacity 1, the second add throws ArrayIndexOutOfBoundsException |
| ArrayListTraces.GrowthFromZeroStalls | src/com/hongdeyan/list/EgdwArrayList.java:145-146 | with capacity 0, the first add throws ArrayIndexOutOfBoundsException |
| ArrayListTraces.GetAtSizeReadsPastEnd | src/com/hongdeyan/list/EgdwArrayList.java:78-81 | get at the size returns the null slot past the elements |
| ArrayListTraces.RemoveIndexOnFullListThrows | src/com/hongdeyan/list/EgdwArrayList.java:236-239 | removeIndex on a full list throws, while removeLast succeeds |
| ArrayListTraces.RemoveIndexAtSizeDropsLast | src/com/hongdeyan/list/EgdwArrayList.java:231-244 | removeIndex at the size of a non-full list returns the null slot past the elements and drops the counter, and get at the new counter still reads the element that left the contents |
| ArrayListTraces.RemoveIndexOnEmptyListNegativeSize | src/com/hongdeyan/list/EgdwArrayList.java:231-240 | removeIndex(0) on an empty list succeeds and leaves the size at -1 |
| ArrayListTraces.RemovalHalvesCapacity | src/com/hongdeyan/list/EgdwArrayList.java:123-140 | removing one of two elements from capacity 10 halves the capacity to 5 |

## Left out

- Keys are `int` instead of raw `Comparable`, and `compareTo` is integer comparison. The `EgdwMap` interface the map implements is not part of this model.
- The state an exception leaves behind is not modelled. An operation that throws returns only the exception. In Java, by then:
  - `addElement` may already have raised `size`;
  - `addElement` may already have rewritten stored heights and relinked a child before a rotation throws (the `DuplicateAddThrows` case);
  - `removeElement` may already have relinked nodes;
  - `add(element, index)` may already have grown the array before its `IllegalArgumentException`;
  - a shifting loop may already have moved elements.
- Java object identity is modelled only through the root handle kept by `remove`.
- `removeBiggestNode` and `getLeftLastChildNode` are never called, so they are not modelled.
- `modCount` is written but never read.
- The `Itr` iterator is not modelled; its `forEachRemaining` is empty.
- `toString` and the console print in `pop` are presentation only.
- The nulling of old array slots before an array is dropped only helps the garbage collector. No later read can observe it.
- `size` is unbounded in the model. The Java `int` counters can leave their range only after more than 2^31 steps: the map's counter rises on every insertion of a new key, and falls on every `remove` of a key still found under the root handle, including repeated removals of a lone root's key (`RemoveLoneRootTwice`), so it can go negative and in the end underflow.
- `addLast` raises `size` before the out-of-bounds write throws, so a caught exception leaves the list's counter one above the capacity. The model returns only the exception, so `Shape` covers only states reached without a caught exception. The `(int)` cast in `grow` is modelled with its saturation at the largest int. `OutOfMemoryError` is not modelled.
- List elements are never `null`. In Java a `null` element can be stored by `add(null)`, `add(null, index)` or `set(null, index)`, and a later `remove(E)`, `indexOf` or `contains` that meets it throws in `equals`. The constructors and `clear` produce valid lists, and every other operation keeps a list valid or at counter -1 (`OperationsKeepReachable`), so no `null` slot ever lies below the counter: the `NullPointerException` results of `Remove`, `IndexOf` and `Contains` are reached only from lists no operation produces.
- Map values are never `null`. In Java `add(k, null)` stores a `null` value, and `get` then cannot tell it from an absent key; `GetElement` returns `Option<V>`, which keeps the two apart.
- The doubles `1.5` and `4` are modelled exactly in integers: `size * 3 / 2`, and `capacity / size > 4` with integer division.
- ArrayList.Add: states only the return value and the counter. Its full behaviour is AddLast's, as AddIsAddLast proves.

=== FILE: array_list.dfy ===
/**
 The growable array list `EgdwArrayList`: a backing array of possibly-null
 slots and a `size` counter.

 A list is a value: `slots` is the backing array (its length is the
 capacity, `None` is a null slot) and `size` is the counter. Every operation
 returns the new list; an operation that throws returns `Err` with the
 exception's class instead. The operations follow the source line by line,
 including its boundary defects: `get` accepts `index == size`, `removeIndex`
 accepts `index == size` (driving `size` to -1 on an empty list) and throws on
 a full list, and growth from capacity 0 or 1 makes no room.

 The pure functions give each operation in closed form; the methods run the
 copy, shift and search loops of the source and are proved to compute the same
 result.
 */
module ArrayList {
  import opened Outcomes

  /** `DEFAULT_SIZE`: the capacity of a list built without one. */
  const DefaultCapacity: int := 10

  /** `Integer.MAX_VALUE`: the largest array length, and where the `(int)` cast in `grow` saturates. */
  const IntMax: int := 0x7fff_ffff

  /** `DEFAULT_RELEASE_SIZE`: the list shrinks once capacity / size exceeds this. */
  const ReleaseRatio: int := 4

  datatype List<E> = List(slots: seq<Option<E>>, size: int)

  // ---------------------------------------------------------------------------
  // Invariants and abstraction
  // ---------------------------------------------------------------------------

  /**
   What every list the class reaches without a caught exception satisfies: the
   counter never passes the capacity, the capacity is a Java array length, and
   the counter is at least -1 (it reaches -1 through `removeIndex(0)` on an
   empty list). A caught exception from `addLast` on a full list can leave the
   counter one above the capacity, because `size` is raised before the write.
   */
  ghost predicate Shape<E>(l: List<E>) {
    -1 <= l.size <= |l.slots| <= IntMax
  }

  /** A list in its intended state: a non-negative counter and no null slot below it. */
  ghost predicate Valid<E>(l: List<E>) {
    && 0 <= l.size <= |l.slots| <= IntMax
    && forall i :: 0 <= i < l.size ==> l.slots[i].Some?
  }

  /**
   The states the operations can reach from a constructed list: the intended
   ones, and the one `removeIndex(0)` leaves on an empty list, with the counter
   at -1.
   */
  ghost predicate Reachable<E>(l: List<E>) {
    Valid(l) || (Shape(l) && l.size == -1)
  }

  /** The elements the list holds: the slots below the counter. */
  ghost function Contents<E>(l: List<E>): seq<Option<E>>
    requires 0 <= l.size <= |l.slots|
  {
    l.slots[..l.size]
  }

  /** `n` null slots: a freshly allocated array. */
  function Nulls<E>(n: nat): (s: seq<Option<E>>)
    ensures |s| == n
    ensures forall i :: 0 <= i < n ==> s[i] == None
  {
    if n == 0 then [] else Nulls(n - 1) + [None]
  }

  /** The first position holding `x`, or -1 when no position does. */
  function FirstIndex<E(==)>(s: seq<Option<E>>, x: Option<E>): (i: int)
    ensures -1 <= i < |s|
    ensures i == -1 <==> x !in s
    ensures 0 <= i ==> s[i] == x && x !in s[..i]
  {
    if s == [] then -1
    else if s[0] == x then 0
    else
      var j := FirstIndex(s[1..], x);
      assert s == [s[0]] + s[1..];
      if j == -1 then -1
      else
        assert s[..j + 1] == [s[0]] + s[1..][..j];
        j + 1
  }

  /** A position holding `x` with no earlier one is the first position. */
  lemma FirstIndexIs<E>(s: seq<Option<E>>, x: Option<E>, i: int)
    requires 0 <= i < |s| && s[i] == x && x !in s[..i]
    ensures FirstIndex(s, x) == i
  {
  }

  // ---------------------------------------------------------------------------
  // Construction and queries
  // ---------------------------------------------------------------------------

  /** The capacity constructor: a negative capacity is rejected, otherwise an empty list of that capacity. */
  function New<E>(capacity: int): (r: Result<List<E>>)
    requires capacity <= IntMax
    ensures r.Ok? <==> 0 <= capacity
    ensures r.Err? ==> r.error == IllegalArgument
    ensures r.Ok? ==> Valid(r.value) && Contents(r.value) == [] && |r.value.slots| == capacity
    ensures r.Ok? ==> forall i :: 0 <= i < capacity ==> r.value.slots[i] == None
  {
    if capacity < 0 then Err(IllegalArgument) else Ok(List(Nulls(capacity), 0))
  }

  /** The default constructor: an empty list of capacity 10. */
  function NewDefault<E>(): (l: List<E>)
    ensures Valid(l) && Contents(l) == [] && |l.slots| == DefaultCapacity
  {
    New(DefaultCapacity).value
  }

  /** `size`: the number of elements held. */
  function Size<E>(l: List<E>): (n: int)
    ensures Valid(l) ==> n == |Contents(l)|
  {
    l.size
  }

  /** `isEmpty`: whether no element is held. */
  function IsEmpty<E>(l: List<E>): (b: bool)
    ensures Valid(l) ==> (b <==> Contents(l) == [])
  {
    l.size == 0
  }

  /** `getOpcaity`: documented as the capacity, it reports the number of elements held. */
  function GetOpcaity<E>(l: List<E>): (n: int)
    ensures Valid(l) ==> n == |Contents(l)|
    ensures Valid(l) && l.size < |l.slots| ==> n != |l.slots|
  {
    l.size
  }

  /**
   `get`: a negative index or one above the counter is rejected; the index equal
   to the counter passes the check and reads the slot just past the elements,
   which throws only when the list is full.
   */
  function Get<E>(l: List<E>, index: int): (r: Result<Option<E>>)
    requires Shape(l)
    ensures r == Err(IllegalArgument) <==> index < 0 || index > l.size
    ensures r.Ok? <==> 0 <= index <= l.size && index < |l.slots|
    ensures r.Err? ==> r.error == IllegalArgument || r.error == IndexOutOfBounds
    ensures Valid(l) && 0 <= index < l.size ==> r == Ok(Contents(l)[index]) && r.value.Some?
    ensures r.Ok? && index == l.size ==> r.value == l.slots[l.size]
  {
    if index < 0 then Err(IllegalArgument)
    else if index > l.size then Err(IllegalArgument)
    else if index >= |l.slots| then Err(IndexOutOfBounds)
    else Ok(l.slots[index])
  }

  // ---------------------------------------------------------------------------
  // Growth and release
  // ---------------------------------------------------------------------------

  /**
   The new capacity of `grow`: `(int) (size * 1.5)`, that is size * 3 / 2 rounded
   down, saturated at the largest int. It exceeds the old one exactly when the
   old one is at least 2 and below the largest int.
   */
  function GrowCapacity(n: int): (c: int)
    requires 0 <= n <= IntMax
    ensures n <= c <= IntMax
    ensures c > n <==> 2 <= n < IntMax
    ensures 3 * n / 2 <= IntMax ==> 2 * c <= 3 * n < 2 * c + 2
    ensures 3 * n / 2 > IntMax ==> c == IntMax
  {
    if n * 3 / 2 > IntMax then IntMax else n * 3 / 2
  }

  /**
   `grow`, called only on a full list: a larger array holding every old slot in
   place, the new slots null.
   */
  function Grow<E>(l: List<E>): (r: List<E>)
    requires Shape(l) && l.size == |l.slots|
    ensures Shape(r) && r.size == l.size
    ensures |r.slots| == GrowCapacity(|l.slots|)
    ensures r.slots[..|l.slots|] == l.slots
    ensures forall i :: |l.slots| <= i < |r.slots| ==> r.slots[i] == None
    ensures Valid(l) ==> Valid(r) && Contents(r) == Contents(l)
  {
    var r := List(l.slots + Nulls(GrowCapacity(|l.slots|) - |l.slots|), l.size);
    assert r.slots[..|l.slots|] == l.slots;
    r
  }

  /** The copy loop of `grow`. */
  method GrowCopy<E>(l: List<E>) returns (r: List<E>)
    requires Shape(l) && l.size == |l.slots|
    ensures r == Grow(l)
  {
    var arrs: seq<Option<E>> := Nulls(GrowCapacity(|l.slots|));
    for i := 0 to |l.slots|
      invariant |arrs| == GrowCapacity(|l.slots|)
      invariant forall j :: 0 <= j < i ==> arrs[j] == l.slots[j]
      invariant forall j :: i <= j < |arrs| ==> arrs[j] == None
    {
      arrs := arrs[i := l.slots[i]];
    }
    r := List(arrs, l.size);
    assert arrs == Grow(l).slots;
  }

  /** `ensureExplicitCapacity`: grow when there is no free slot, otherwise leave the list alone. */
  function EnsureCapacity<E>(l: List<E>): (r: List<E>)
    requires Shape(l)
    ensures Shape(r) && r.size == l.size
    ensures |l.slots| <= |r.slots| && r.slots[..|l.slots|] == l.slots
    ensures l.size < |r.slots| <==> l.size < |l.slots| || 2 <= l.size < IntMax
    ensures l.size < |l.slots| ==> r == l
    ensures Valid(l) ==> Valid(r) && Contents(r) == Contents(l)
  {
    if |l.slots| - l.size == 0 then Grow(l) else l
  }

  /**
   `decline`: an array of half the capacity holding the elements. Called only
   when the elements fit in it.
   */
  function Decline<E>(l: List<E>): (r: List<E>)
    requires 0 <= l.size <= |l.slots| / 2
    ensures r.size == l.size && |r.slots| == |l.slots| / 2
    ensures Contents(r) == Contents(l)
    ensures forall i :: l.size <= i < |r.slots| ==> r.slots[i] == None
  {
    var r := List(l.slots[..l.size] + Nulls(|l.slots| / 2 - l.size), l.size);
    assert r.slots[..l.size] == l.slots[..l.size];
    r
  }

  /** The copy loop of `decline`. */
  method DeclineCopy<E>(l: List<E>) returns (r: List<E>)
    requires 0 <= l.size <= |l.slots| / 2
    ensures r == Decline(l)
  {
    var objs: seq<Option<E>> := Nulls(|l.slots| / 2);
    for i := 0 to l.size
      invariant |objs| == |l.slots| / 2
      invariant forall j :: 0 <= j < i ==> objs[j] == l.slots[j]
      invariant forall j :: i <= j < |objs| ==> objs[j] == None
    {
      objs := objs[i := l.slots[i]];
    }
    r := List(objs, l.size);
    assert objs == Decline(l).slots;
  }

  /** Capacity at least five times a positive size leaves room for the size, and a free slot, in half the capacity. */
  lemma HalfHoldsSize(capacity: int, size: int)
    requires 0 < size && capacity / size > ReleaseRatio
    ensures size < capacity / 2
  {
    var q := capacity / size;
    assert capacity == q * size + capacity % size;
    assert q * size >= 5 * size;
  }

  /**
   The capacity after `ensureExplicitCapacityRelease`: halved when the list
   holds elements and the capacity divided by the size (integer division)
   exceeds 4, otherwise unchanged.
   */
  function ReleasedCapacity(capacity: int, size: int): (c: int)
    requires 0 <= capacity
    ensures c == capacity || c == capacity / 2
    ensures c < capacity <==> size > 0 && capacity / size > ReleaseRatio
  {
    if size > 0 && capacity / size > ReleaseRatio then capacity / 2 else capacity
  }

  /**
   `ensureExplicitCapacityRelease`: when the list holds elements and the
   capacity divided by the size (integer division) exceeds 4, halve the
   capacity; the elements stay and still fit.
   */
  function Release<E>(l: List<E>): (r: List<E>)
    requires Shape(l)
    ensures Shape(r) && r.size == l.size && l.size <= |r.slots|
    ensures |r.slots| == ReleasedCapacity(|l.slots|, l.size)
    ensures l.size >= 0 ==> Contents(r) == Contents(l)
    ensures Valid(l) ==> Valid(r)
    ensures !(l.size > 0 && |l.slots| / l.size > ReleaseRatio) ==> r == l
    ensures 0 <= l.size < |l.slots| ==> l.size < |r.slots|
    ensures 0 <= l.size < |l.slots| && l.slots[l.size].None? ==> r.slots[l.size].None?
  {
    if l.size > 0 && |l.slots| / l.size > ReleaseRatio then
      HalfHoldsSize(|l.slots|, l.size);
      var r := Decline(l);
      assert forall i :: 0 <= i < l.size ==> r.slots[i] == Contents(r)[i] == Contents(l)[i] == l.slots[i];
      r
    else l
  }

  // ---------------------------------------------------------------------------
  // Insertion and update
  // ---------------------------------------------------------------------------

  /**
   `addLast`: make room if full, write the element at the counter and return the
   counter's old value. The write throws when growth made no room, and when the
   counter is -1.
   */
  function AddLast<E>(l: List<E>, e: E): (r: Result<(List<E>, int)>)
    requires Shape(l)
    ensures r.Err? ==> r.error == IndexOutOfBounds
    ensures r.Ok? <==> 0 <= l.size && (l.size < |l.slots| || 2 <= l.size < IntMax)
    ensures r.Ok? ==> Shape(r.value.0) && r.value.1 == l.size && r.value.0.size == l.size + 1
    ensures r.Ok? ==> |r.value.0.slots| == if l.size == |l.slots| then GrowCapacity(l.size) else |l.slots|
    ensures r.Ok? && Valid(l) ==> Valid(r.value.0) && Contents(r.value.0) == Contents(l) + [Some(e)]
  {
    var l1 := EnsureCapacity(l);
    if l1.size < 0 || l1.size >= |l1.slots| then Err(IndexOutOfBounds)
    else
      var r := List(l1.slots[l1.size := Some(e)], l1.size + 1);
      assert Valid(l) ==> Contents(r) == Contents(l1) + [Some(e)];
      Ok((r, l1.size))
  }

  /** `add(element)`: make room if full, then `addLast`, which makes room again if still full. */
  function Add<E>(l: List<E>, e: E): (r: Result<(List<E>, int)>)
    requires Shape(l)
    ensures r.Err? ==> r.error == IndexOutOfBounds
    ensures r.Ok? ==> r.value.1 == l.size && r.value.0.size == l.size + 1
  {
    AddLast(EnsureCapacity(l), e)
  }

  /** The extra capacity check of `add` changes nothing: it behaves exactly like `addLast`. */
  lemma AddIsAddLast<E>(l: List<E>, e: E)
    requires Shape(l)
    ensures Add(l, e) == AddLast(l, e)
  {
    var l1 := EnsureCapacity(l);
    if l.size == |l.slots| && !(2 <= l.size < IntMax) {
      assert |l1.slots| == l.size;
      assert AddLast(l1, e).Err? && AddLast(l, e).Err?;
    }
  }

  /** The slots after the element `e` is inserted at `index` and the later elements move up by one. */
  function InsertedSlots<E>(s: seq<Option<E>>, size: int, e: E, index: int): (t: seq<Option<E>>)
    requires 0 <= index <= size < |s|
    ensures |t| == |s|
    ensures forall j :: 0 <= j < index ==> t[j] == s[j]
    ensures t[index] == Some(e)
    ensures forall j :: index < j <= size ==> t[j] == s[j - 1]
    ensures forall j :: size < j < |s| ==> t[j] == s[j]
  {
    s[..index] + [Some(e)] + s[index..size] + s[size + 1..]
  }

  /**
   `add(element, index)`: make room if full, reject an index below 0 or above
   the counter, shift the elements from `index` up by one and write the element
   at `index`. When growth made no room the first write past the end throws:
   the shift's first write when `index` is below the counter, the write at
   `index` itself when it equals the counter.
   */
  function Insert<E>(l: List<E>, e: E, index: int): (r: Result<(List<E>, bool)>)
    requires Shape(l)
    ensures r == Err(IllegalArgument) <==> index < 0 || index > l.size
    ensures r.Err? ==> r.error == IllegalArgument || r.error == IndexOutOfBounds
    ensures 0 <= index <= l.size ==> (r.Ok? <==> l.size < |l.slots| || 2 <= l.size < IntMax)
    ensures r.Ok? ==> r.value.1 && Shape(r.value.0) && r.value.0.size == l.size + 1
    ensures r.Ok? ==> |r.value.0.slots| == if l.size == |l.slots| then GrowCapacity(l.size) else |l.slots|
    ensures r.Ok? && Valid(l) ==>
              Valid(r.value.0) && Contents(r.value.0) == Contents(l)[..index] + [Some(e)] + Contents(l)[index..]
  {
    var l1 := EnsureCapacity(l);
    if index < 0 || index > l1.size then Err(IllegalArgument)
    else if l1.size >= |l1.slots| then Err(IndexOutOfBounds)
    else
      var r := List(InsertedSlots(l1.slots, l1.size, e, index), l1.size + 1);
      InsertedContents(l, l1, r, e, index);
      Ok((r, true))
  }

  /** The insertion seen through `Contents`. */
  lemma InsertedContents<E>(l: List<E>, l1: List<E>, r: List<E>, e: E, index: int)
    requires Shape(l) && l1 == EnsureCapacity(l)
    requires 0 <= index <= l1.size < |l1.slots|
    requires r == List(InsertedSlots(l1.slots, l1.size, e, index), l1.size + 1)
    ensures Valid(l) ==> Valid(r) && Contents(r) == Contents(l)[..index] + [Some(e)] + Contents(l)[index..]
  {
    if Valid(l) {
      var c := Contents(l)[..index] + [Some(e)] + Contents(l)[index..];
      assert Contents(l1) == Contents(l);
      assert |Contents(r)| == |c|;
      forall j | 0 <= j < |c|
        ensures Contents(r)[j] == c[j]
      {
        if j < index {
        } else if j == index {
        } else {
          assert c[j] == Contents(l)[j - 1];
        }
      }
    }
  }

  /** The shift loop of `add(element, index)`. */
  method InsertShift<E>(l: List<E>, e: E, index: int) returns (r: Result<(List<E>, bool)>)
    requires Shape(l)
    ensures r == Insert(l, e, index)
  {
    var l1 := EnsureCapacity(l);
    if index < 0 || index > l1.size {
      return Err(IllegalArgument);
    }
    if l1.size >= |l1.slots| {
      return Err(IndexOutOfBounds);
    }
    var s := l1.slots;
    var i := l1.size;
    while i > index
      invariant index <= i <= l1.size
      invariant |s| == |l1.slots|
      invariant forall j :: 0 <= j <= i ==> s[j] == l1.slots[j]
      invariant forall j :: i < j <= l1.size ==> s[j] == l1.slots[j - 1]
      invariant forall j :: l1.size < j < |s| ==> s[j] == l1.slots[j]
    {
      s := s[i := s[i - 1]];
      i := i - 1;
    }
    s := s[index := Some(e)];
    assert s == InsertedSlots(l1.slots, l1.size, e, index);
    r := Ok((List(s, l1.size + 1), true));
  }

  /**
   `set`: an index above the counter is rejected; any other index is written,
   which throws outside the array. Writing at the counter stores the element in
   the slot just past the elements, outside the contents, where `get` and
   `removeIndex` at the counter still see it.
   */
  function Set<E>(l: List<E>, e: E, index: int): (r: Result<(List<E>, bool)>)
    requires Shape(l)
    ensures r == Err(IllegalArgument) <==> index > l.size
    ensures r.Ok? <==> 0 <= index <= l.size && index < |l.slots|
    ensures r.Err? ==> r.error == IllegalArgument || r.error == IndexOutOfBounds
    ensures r.Ok? ==> r.value.1 && Shape(r.value.0) && r.value.0.size == l.size && |r.value.0.slots| == |l.slots|
    ensures r.Ok? ==> r.value.0.slots[index] == Some(e)
    ensures r.Ok? ==> forall j :: 0 <= j < |l.slots| && j != index ==> r.value.0.slots[j] == l.slots[j]
    ensures Valid(l) && 0 <= index < l.size ==> r.Ok? && Valid(r.value.0) && Contents(r.value.0) == Contents(l)[index := Some(e)]
    ensures Valid(l) && r.Ok? && index == l.size ==> Valid(r.value.0) && Contents(r.value.0) == Contents(l)
  {
    if index > l.size then Err(IllegalArgument)
    else if index < 0 || index >= |l.slots| then Err(IndexOutOfBounds)
    else
      var r := List(l.slots[index := Some(e)], l.size);
      assert Valid(l) && index == l.size ==> Contents(r) == Contents(l);
      Ok((r, true))
  }

  // ---------------------------------------------------------------------------
  // Removal
  // ---------------------------------------------------------------------------

  /** The shared first step of `pop` and `removeLast`: null the last slot and drop the counter. */
  function DropLast<E>(l: List<E>): (r: List<E>)
    requires Shape(l) && l.size > 0
    ensures Shape(r) && r.size == l.size - 1 && |r.slots| == |l.slots|
    ensures r.slots[r.size].None?
    ensures forall j :: 0 <= j < |l.slots| && j != r.size ==> r.slots[j] == l.slots[j]
    ensures Valid(l) ==> Valid(r) && Contents(r) == Contents(l)[..l.size - 1]
  {
    var r := List(l.slots[l.size - 1 := None], l.size - 1);
    assert Valid(l) ==> Contents(r) == Contents(l)[..l.size - 1];
    r
  }

  /** `pop`: drop the last element if there is one, release spare capacity, and report true regardless. */
  function Pop<E>(l: List<E>): (r: (List<E>, bool))
    requires Shape(l)
    ensures r.1 && Shape(r.0)
    ensures l.size <= 0 ==> r.0 == l
    ensures l.size > 0 ==> r.0.size == l.size - 1
    ensures l.size > 0 ==> |r.0.slots| == ReleasedCapacity(|l.slots|, l.size - 1)
    ensures l.size > 0 ==> r.0.size < |r.0.slots| && r.0.slots[r.0.size].None?
    ensures l.size > 0 && Valid(l) ==> Valid(r.0) && Contents(r.0) == Contents(l)[..l.size - 1]
  {
    if l.size > 0 then (Release(DropLast(l)), true) else (Release(l), true)
  }

  /** The slots after the element at `index` is removed and the later ones move down by one. */
  function RemovedSlots<E>(s: seq<Option<E>>, size: int, index: int): (t: seq<Option<E>>)
    requires 0 <= index <= size < |s|
    ensures |t| == |s|
    ensures forall j :: 0 <= j < index ==> t[j] == s[j]
    ensures forall j :: index <= j < size ==> t[j] == s[j + 1]
    ensures t[size] == None
    ensures forall j :: size < j < |s| ==> t[j] == s[j]
  {
    s[..index] + s[index + 1..size + 1] + [None] + s[size + 1..]
  }

  /**
   `removeIndex`: an index below 0 or above the counter is rejected. Otherwise
   the slot at `index` is read, the later slots move down by one, the slot at
   the counter is nulled, the counter drops by one and spare capacity is
   released. On a full list the read past the end throws: the shift's last
   read when `index` is below the counter, the first read when it equals the
   counter. The index equal to the counter passes on a list that is not full:
   it returns the slot just past the elements (normally null), and the counter
   drops, so the last element falls out of the contents but stays in its slot,
   where `get` at the new counter still reads it.
   */
  function RemoveIndex<E>(l: List<E>, index: int): (r: Result<(List<E>, Option<E>)>)
    requires Shape(l)
    ensures r == Err(IllegalArgument) <==> index < 0 || index > l.size
    ensures r.Ok? <==> 0 <= index <= l.size < |l.slots|
    ensures r.Err? ==> r.error == IllegalArgument || r.error == IndexOutOfBounds
    ensures r.Ok? ==> Shape(r.value.0) && r.value.0.size == l.size - 1 && r.value.1 == l.slots[index]
    ensures r.Ok? ==> |r.value.0.slots| == ReleasedCapacity(|l.slots|, l.size - 1)
    ensures r.Ok? && Valid(l) && index < l.size ==>
              Valid(r.value.0) && r.value.1 == Contents(l)[index]
              && Contents(r.value.0) == Contents(l)[..index] + Contents(l)[index + 1..]
    ensures r.Ok? && Valid(l) && 0 < index == l.size ==> Valid(r.value.0) && Contents(r.value.0) == Contents(l)[..l.size - 1]
  {
    if index > l.size || index < 0 then Err(IllegalArgument)
    else if l.size >= |l.slots| then Err(IndexOutOfBounds)
    else
      var l1 := List(RemovedSlots(l.slots, l.size, index), l.size - 1);
      RemovedContents(l, l1, index);
      Ok((Release(l1), l.slots[index]))
  }

  /** The removal seen through `Contents`. */
  lemma RemovedContents<E>(l: List<E>, l1: List<E>, index: int)
    requires Shape(l) && 0 <= index <= l.size < |l.slots|
    requires l1 == List(RemovedSlots(l.slots, l.size, index), l.size - 1)
    ensures Valid(l) && index < l.size ==> Valid(l1) && Contents(l1) == Contents(l)[..index] + Contents(l)[index + 1..]
    ensures Valid(l) && 0 < index == l.size ==> Valid(l1) && Contents(l1) == Contents(l)[..l.size - 1]
  {
    if Valid(l) && index < l.size {
      var c := Contents(l)[..index] + Contents(l)[index + 1..];
      assert |Contents(l1)| == |c|;
      forall j | 0 <= j < |c|
        ensures Contents(l1)[j] == c[j]
      {
        if j >= index {
          assert c[j] == Contents(l)[j + 1];
        }
      }
    }
  }

  /** The shift loop of `removeIndex`. */
  method RemoveShift<E>(l: List<E>, index: int) returns (r: Result<(List<E>, Option<E>)>)
    requires Shape(l)
    ensures r == RemoveIndex(l, index)
  {
    if index > l.size || index < 0 {
      return Err(IllegalArgument);
    }
    if l.size >= |l.slots| {
      return Err(IndexOutOfBounds);
    }
    var s := l.slots;
    var temp := s[index];
    for i := index to l.size
      invariant |s| == |l.slots|
      invariant forall j :: 0 <= j < index ==> s[j] == l.slots[j]
      invariant forall j :: index <= j < i ==> s[j] == l.slots[j + 1]
      invariant forall j :: i <= j < |s| ==> s[j] == l.slots[j]
    {
      s := s[i := s[i + 1]];
    }
    s := s[l.size := None];
    assert s == RemovedSlots(l.slots, l.size, index);
    r := Ok((Release(List(s, l.size - 1)), temp));
  }

  /**
   `remove(element)`: remove the first element equal to `element` through
   `removeIndex` and return it, or return null when there is none. A null slot
   met before a match throws.
   */
  method Remove<E(==)>(l: List<E>, e: E) returns (r: Result<(List<E>, Option<E>)>)
    requires Shape(l)
    ensures Valid(l) ==>
              var i := FirstIndex(Contents(l), Some(e));
              r == if i == -1 then Ok((l, None)) else RemoveIndex(l, i)
    ensures r == Err(NullPointer) ==> exists j :: 0 <= j < l.size && l.slots[j] == None
  {
    for i := 0 to if l.size < 0 then 0 else l.size
      invariant forall j :: 0 <= j < i ==> l.slots[j] != Some(e) && l.slots[j].Some?
    {
      if l.slots[i].None? {
        return Err(NullPointer);
      }
      if l.slots[i] == Some(e) {
        if Valid(l) {
          assert Contents(l)[..i] == l.slots[..i];
          FirstIndexIs(Contents(l), Some(e), i);
        }
        r := RemoveIndex(l, i);
        return;
      }
    }
    assert Valid(l) ==> Some(e) !in Contents(l);
    r := Ok((l, None));
  }

  /** `removeLast`: throw on an empty list, otherwise null the last slot, drop the counter, release, and return the element. */
  function RemoveLast<E>(l: List<E>): (r: Result<(List<E>, Option<E>)>)
    requires Shape(l)
    ensures r.Err? <==> l.size <= 0
    ensures r.Err? ==> r.error == NoSuchElement
    ensures r.Ok? ==> Shape(r.value.0) && r.value.0.size == l.size - 1
    ensures r.Ok? ==> |r.value.0.slots| == ReleasedCapacity(|l.slots|, l.size - 1)
    ensures r.Ok? ==> r.value.0.size < |r.value.0.slots| && r.value.0.slots[r.value.0.size].None?
    ensures r.Ok? && Valid(l) ==>
              r.value.1 == Contents(l)[l.size - 1] && r.value.1.Some?
              && Valid(r.value.0) && Contents(r.value.0) == Contents(l)[..l.size - 1]
  {
    if l.size <= 0 then Err(NoSuchElement)
    else Ok((Release(DropLast(l)), l.slots[l.size - 1]))
  }

  /** `clear`: null every slot below the counter and set the counter to 0; the capacity stays. */
  method Clear<E>(l: List<E>) returns (r: List<E>)
    requires Shape(l)
    ensures Valid(r) && Contents(r) == []
    ensures |r.slots| == |l.slots|
    ensures forall j :: 0 <= j < |l.slots| ==> r.slots[j] == if j < l.size then None else l.slots[j]
  {
    var s := l.slots;
    for i := 0 to if l.size < 0 then 0 else l.size
      invariant |s| == |l.slots|
      invariant forall j :: 0 <= j < i ==> s[j] == None
      invariant forall j :: i <= j < |s| ==> s[j] == l.slots[j]
    {
      s := s[i := None];
    }
    r := List(s, 0);
  }

  // ---------------------------------------------------------------------------
  // Search
  // ---------------------------------------------------------------------------

  /** `indexOf`: the least position below the counter holding the element, or -1; a null slot met first throws. */
  method IndexOf<E(==)>(l: List<E>, e: E) returns (r: Result<int>)
    requires Shape(l)
    ensures Valid(l) ==> r == Ok(FirstIndex(Contents(l), Some(e)))
    ensures r.Err? ==> r.error == NullPointer && exists j :: 0 <= j < l.size && l.slots[j] == None
  {
    for i := 0 to if l.size < 0 then 0 else l.size
      invariant forall j :: 0 <= j < i ==> l.slots[j] != Some(e) && l.slots[j].Some?
    {
      if l.slots[i].None? {
        return Err(NullPointer);
      }
      if l.slots[i] == Some(e) {
        if Valid(l) {
          assert Contents(l)[..i] == l.slots[..i];
          FirstIndexIs(Contents(l), Some(e), i);
        }
        return Ok(i);
      }
    }
    assert Valid(l) ==> Some(e) !in Contents(l);
    return Ok(-1);
  }

  /** `contains`: whether some position below the counter holds the element; a null slot met first throws. */
  method Contains<E(==)>(l: List<E>, e: E) returns (r: Result<bool>)
    requires Shape(l)
    ensures Valid(l) ==> r == Ok(Some(e) in Contents(l))
    ensures Valid(l) ==> (r == Ok(true) <==> FirstIndex(Contents(l), Some(e)) != -1)
    ensures r.Err? ==> r.error == NullPointer && exists j :: 0 <= j < l.size && l.slots[j] == None
  {
    for i := 0 to if l.size < 0 then 0 else l.size
      invariant forall j :: 0 <= j < i ==> l.slots[j] != Some(e) && l.slots[j].Some?
    {
      if l.slots[i].None? {
        return Err(NullPointer);
      }
      if l.slots[i] == Some(e) {
        assert Valid(l) ==> Contents(l)[i] == Some(e);
        return Ok(true);
      }
    }
    assert Valid(l) ==> Some(e) !in Contents(l);
    return Ok(false);
  }

  // ---------------------------------------------------------------------------
  // Properties relating operations
  // ---------------------------------------------------------------------------

  /** Appending and then removing the last element gives the element back and restores the elements. */
  lemma AddLastThenRemoveLast<E>(l: List<E>, e: E)
    requires Valid(l) && AddLast(l, e).Ok?
    ensures var l' := AddLast(l, e).value.0;
            RemoveLast(l').Ok? && RemoveLast(l').value.1 == Some(e)
            && Contents(RemoveLast(l').value.0) == Contents(l)
  {
    var l' := AddLast(l, e).value.0;
    assert Contents(l') == Contents(l) + [Some(e)];
    assert (Contents(l) + [Some(e)])[..l.size] == Contents(l);
  }

  /**
   Inserting at `index` and then removing at `index` gives the element back and
   restores the elements, unless the insertion filled the list, in which case
   the removal throws.
   */
  lemma InsertThenRemoveIndex<E>(l: List<E>, e: E, index: int)
    requires Valid(l) && Insert(l, e, index).Ok?
    ensures var l' := Insert(l, e, index).value.0;
            && (RemoveIndex(l', index).Ok? <==> l'.size < |l'.slots|)
            && (RemoveIndex(l', index).Ok? ==>
                  RemoveIndex(l', index).value.1 == Some(e) && Contents(RemoveIndex(l', index).value.0) == Contents(l))
  {
    var l' := Insert(l, e, index).value.0;
    var c := Contents(l);
    assert Contents(l') == c[..index] + [Some(e)] + c[index..];
    assert Contents(l')[index] == Some(e);
    assert (c[..index] + [Some(e)] + c[index..])[..index] == c[..index];
    assert (c[..index] + [Some(e)] + c[index..])[index + 1..] == c[index..];
    assert c[..index] + c[index..] == c;
  }

  /** A successful `set` is seen by `get` at the same index. */
  lemma SetThenGet<E>(l: List<E>, e: E, index: int)
    requires Shape(l) && Set(l, e, index).Ok?
    ensures Get(Set(l, e, index).value.0, index) == Ok(Some(e))
  {
  }

  /**
   Every operation keeps a list reachable, so no null slot ever lies below the
   counter of a list the operations produce.
   */
  lemma OperationsKeepReachable<E>(l: List<E>, e: E, index: int)
    requires Reachable(l)
    ensures AddLast(l, e).Ok? ==> Reachable(AddLast(l, e).value.0)
    ensures Insert(l, e, index).Ok? ==> Reachable(Insert(l, e, index).value.0)
    ensures Set(l, e, index).Ok? ==> Reachable(Set(l, e, index).value.0)
    ensures Reachable(Pop(l).0)
    ensures RemoveIndex(l, index).Ok? ==> Reachable(RemoveIndex(l, index).value.0)
    ensures RemoveLast(l).Ok? ==> Reachable(RemoveLast(l).value.0)
  {
  }
}

=== FILE: array_list_traces.dfy ===
/**
 Traces of the array list: lemmas that evaluate the model on fixed inputs,
 each fixing one boundary behaviour of the code as it is written.
 */
module ArrayListTraces {
  import opened Outcomes
  import opened ArrayList

  /** `getOpcaity` on a fresh default list reports 0, while the capacity is 10. */
  lemma CapacityReportsSize()
    ensures GetOpcaity(NewDefault<int>()) == 0 && |NewDefault<int>().slots| == 10
  {
  }

  /**
   A list built with capacity 1 takes one element; the second `add` finds it
   full, `grow` computes (int) (1 * 1.5) = 1, and the write throws.
   */
  lemma GrowthFromOneStalls()
    ensures New<int>(1).Ok?
    ensures var l := New<int>(1).value;
            && AddLast(l, 7) == Ok((List([Some(7)], 1), 0))
            && Add(List([Some(7)], 1), 8) == Err(IndexOutOfBounds)
  {
    var l := New<int>(1).value;
    assert l == List([None], 0);
    assert [None][0 := Some(7)] == [Some(7)];
    AddIsAddLast(List([Some(7)], 1), 8);
  }

  /** A list built with capacity 0 cannot take any element. */
  lemma GrowthFromZeroStalls()
    ensures New<int>(0) == Ok(List([], 0))
    ensures Add<int>(List([], 0), 7) == Err(IndexOutOfBounds)
  {
    AddIsAddLast<int>(List([], 0), 7);
  }

  /** `get` at the size passes the bound check and returns the null slot past the elements. */
  lemma GetAtSizeReadsPastEnd()
    ensures Get(List([Some(7), None, None], 1), 1) == Ok(None)
    ensures Get(List([Some(7), None, None], 1), 2) == Err(IllegalArgument)
  {
  }

  /**
   On a full list `removeIndex` reads the slot one past the end, so it throws
   for every index in range, while `removeLast` succeeds. Below the counter the
   read is the shift's last one; at the counter it is the first read, of
   `elements[index]`.
   */
  lemma RemoveIndexOnFullListThrows()
    ensures RemoveIndex(List([Some(1), Some(2)], 2), 0) == Err(IndexOutOfBounds)
    ensures RemoveLast(List([Some(1), Some(2)], 2)) == Ok((List([Some(1), None], 1), Some(2)))
  {
    assert [Some(1), Some(2)][1 := None] == [Some(1), None];
  }

  /**
   `removeIndex` at the counter of a list that is not full returns the null
   slot past the elements and drops the counter: the last element leaves the
   contents but stays in its slot, and `get` at the new counter still reads it.
   */
  lemma RemoveIndexAtSizeDropsLast()
    ensures RemoveIndex(List([Some(1), Some(2), None], 2), 2) == Ok((List([Some(1), Some(2), None], 1), None))
    ensures Get(List([Some(1), Some(2), None], 1), 1) == Ok(Some(2))
  {
    assert RemovedSlots([Some(1), Some(2), None], 2, 2) == [Some(1), Some(2), None];
  }

  /** `removeIndex(0)` on an empty list passes the check `index > size` and leaves the size at -1. */
  lemma RemoveIndexOnEmptyListNegativeSize()
    ensures RemoveIndex<int>(List([None, None], 0), 0) == Ok((List([None, None], -1), None))
  {
    assert RemovedSlots<int>([None, None], 0, 0) == [None, None];
  }

  /**
   Removing from a list of capacity 10 that holds two elements leaves one, and
   10 / 1 > 4 halves the capacity to 5.
   */
  lemma RemovalHalvesCapacity()
    ensures var l := List([Some(1), Some(2), None, None, None, None, None, None, None, None], 2);
            RemoveLast(l) == Ok((List([Some(1), None, None, None, None], 1), Some(2)))
  {
    var l1 := List([Some(1), None, None, None, None, None, None, None, None, None], 1);
    assert [Some(1), Some(2), None, None, None, None, None, None, None, None][1 := None] == l1.slots;
    assert Decline(l1).slots == [Some(1), None, None, None, None];
  }
}

=== FILE: avl_traces.dfy ===
/**
 Traces of the AVL map: lemmas that evaluate the model on fixed inputs, each
 fixing one behaviour of the code as it is written: stale stored heights after
 a rotation, double rotations that rotate the wrong way, a re-add of a present
 key that throws, removal that keeps the old root handle, one-child removal
 that drops a subtree, two-children removal that keeps the removed key's value,
 and a counter that goes negative.
 Every key is inserted with itself as its value.

 Each insertion step is a lemma of its own, built from one lemma per level of
 the descent (`...DepthN`: the recursive `addElement` call at depth N) and, where
 the unwind rotates, one for the `Rebalance` at that level. The traces chain the
 steps.
 */
module AvlTraces {
  import opened Outcomes
  import opened AvlTree

  /** Insert the keys in order, each with itself as value, stopping at the first exception. */
  function AddAll(m: AvlMap<int>, ks: seq<int>): Result<AvlMap<int>>
    decreases |ks|
  {
    if ks == [] then Ok(m)
    else
      var (m', _) :- Add(m, ks[0], ks[0]);
      AddAll(m', ks[1..])
  }

  /** When the first insertion of a sequence succeeds, the rest continue from the map it returns. */
  lemma AddAllCons(m: AvlMap<int>, ks: seq<int>, m': AvlMap<int>)
    requires ks != [] && Add(m, ks[0], ks[0]) == Ok((m', true))
    ensures AddAll(m, ks) == AddAll(m', ks[1..])
  {
  }

  /** When the first insertion of a sequence throws, the sequence stops with that exception. */
  lemma AddAllConsThrows(m: AvlMap<int>, ks: seq<int>, e: Exception)
    requires ks != [] && Add(m, ks[0], ks[0]) == Err(e)
    ensures AddAll(m, ks) == Err(e)
  {
  }

  /** Three insertions that each succeed give the map the three-key sequence ends with. */
  lemma AddAllThree(m0: AvlMap<int>, a: int, b: int, c: int, m1: AvlMap<int>, m2: AvlMap<int>, m3: AvlMap<int>)
    requires Add(m0, a, a) == Ok((m1, true))
    requires Add(m1, b, b) == Ok((m2, true))
    requires Add(m2, c, c) == Ok((m3, true))
    ensures AddAll(m0, [a, b, c]) == Ok(m3)
  {
    assert [a, b, c][0] == a && [a, b, c][1..] == [b, c];
    AddAllCons(m0, [a, b, c], m1);
    assert [b, c][0] == b && [b, c][1..] == [c];
    AddAllCons(m1, [b, c], m2);
    assert [c][0] == c && [c][1..] == [];
    AddAllCons(m2, [c], m3);
  }

  /** Two successful insertions followed by one that throws make the three-key sequence throw. */
  lemma AddAllThreeThrows(m0: AvlMap<int>, a: int, b: int, c: int, m1: AvlMap<int>, m2: AvlMap<int>, e: Exception)
    requires Add(m0, a, a) == Ok((m1, true))
    requires Add(m1, b, b) == Ok((m2, true))
    requires Add(m2, c, c) == Err(e)
    ensures AddAll(m0, [a, b, c]) == Err(e)
  {
    assert [a, b, c][0] == a && [a, b, c][1..] == [b, c];
    AddAllCons(m0, [a, b, c], m1);
    assert [b, c][0] == b && [b, c][1..] == [c];
    AddAllCons(m1, [b, c], m2);
    AddAllConsThrows(m2, [c], e);
  }

  /** Six insertions that each succeed give the map the six-key sequence ends with. */
  lemma AddAllSix(m0: AvlMap<int>, a: int, b: int, c: int, d: int, e: int, f: int,
                  m1: AvlMap<int>, m2: AvlMap<int>, m3: AvlMap<int>, m4: AvlMap<int>, m5: AvlMap<int>, m6: AvlMap<int>)
    requires Add(m0, a, a) == Ok((m1, true))
    requires Add(m1, b, b) == Ok((m2, true))
    requires Add(m2, c, c) == Ok((m3, true))
    requires Add(m3, d, d) == Ok((m4, true))
    requires Add(m4, e, e) == Ok((m5, true))
    requires Add(m5, f, f) == Ok((m6, true))
    ensures AddAll(m0, [a, b, c, d, e, f]) == Ok(m6)
  {
    assert [a, b, c, d, e, f][0] == a && [a, b, c, d, e, f][1..] == [b, c, d, e, f];
    AddAllCons(m0, [a, b, c, d, e, f], m1);
    assert [b, c, d, e, f][0] == b && [b, c, d, e, f][1..] == [c, d, e, f];
    AddAllCons(m1, [b, c, d, e, f], m2);
    assert [c, d, e, f][0] == c && [c, d, e, f][1..] == [d, e, f];
    AddAllCons(m2, [c, d, e, f], m3);
    assert [d, e, f][0] == d && [d, e, f][1..] == [e, f];
    AddAllCons(m3, [d, e, f], m4);
    assert [e, f][0] == e && [e, f][1..] == [f];
    AddAllCons(m4, [e, f], m5);
    assert [f][0] == f && [f][1..] == [];
    AddAllCons(m5, [f], m6);
  }

  /** The first key goes into an empty map as a fresh leaf of height 1. */
  lemma AddIntoEmpty(k: int)
    ensures Add(EmptyMap(), k, k) == Ok((AvlMap(Leaf(k, k), 1), true))
  {
  }

  lemma AscendingAdd20Depth0()
    ensures AddElement(Leaf(10, 10), 20, 20)
            == Ok((Node(Nil, 10, 10, 2, Leaf(20, 20)), 1))
  {
    assert Settle(Node(Nil, 10, 10, 1, Leaf(20, 20))) == Ok(Node(Nil, 10, 10, 2, Leaf(20, 20)));
  }
  /** Adding 20 as the second key. */
  lemma AscendingAdd20()
    ensures Add(AvlMap(Leaf(10, 10), 1), 20, 20)
            == Ok((AvlMap(Node(Nil, 10, 10, 2, Leaf(20, 20)), 2), true))
  {
    AscendingAdd20Depth0();
  }

  lemma AscendingAdd30Depth1()
    ensures AddElement(Leaf(20, 20), 30, 30)
            == Ok((Node(Nil, 20, 20, 2, Leaf(30, 30)), 1))
  {
    assert Settle(Node(Nil, 20, 20, 1, Leaf(30, 30))) == Ok(Node(Nil, 20, 20, 2, Leaf(30, 30)));
  }
  lemma AscendingAdd30Depth0Rebalance()
    ensures Rebalance(Node(Nil, 10, 10, 3, Node(Nil, 20, 20, 2, Leaf(30, 30))))
            == Ok((Node(Node(Nil, 10, 10, 3, Nil), 20, 20, 2, Leaf(30, 30)), PromotedRight))
  {
    assert RightRight(Node(Nil, 10, 10, 3, Node(Nil, 20, 20, 2, Leaf(30, 30)))) == Ok(Node(Node(Nil, 10, 10, 3, Nil), 20, 20, 2, Leaf(30, 30)));
  }
  lemma AscendingAdd30Depth0()
    ensures AddElement(Node(Nil, 10, 10, 2, Leaf(20, 20)), 30, 30)
            == Ok((Node(Node(Nil, 10, 10, 3, Nil), 20, 20, 2, Leaf(30, 30)), 1))
  {
    AscendingAdd30Depth1();
    AscendingAdd30Depth0Rebalance();
    assert FixHeight(Node(Nil, 10, 10, 2, Node(Nil, 20, 20, 2, Leaf(30, 30)))) == Node(Nil, 10, 10, 3, Node(Nil, 20, 20, 2, Leaf(30, 30)));
    assert Settle(Node(Nil, 10, 10, 2, Node(Nil, 20, 20, 2, Leaf(30, 30)))) == Ok(Node(Node(Nil, 10, 10, 3, Nil), 20, 20, 2, Leaf(30, 30)));
  }
  /** Adding 30 as the third key. */
  lemma AscendingAdd30()
    ensures Add(AvlMap(Node(Nil, 10, 10, 2, Leaf(20, 20)), 2), 30, 30)
            == Ok((AvlMap(Node(Node(Nil, 10, 10, 3, Nil), 20, 20, 2, Leaf(30, 30)), 3), true))
  {
    AscendingAdd30Depth0();
  }

  lemma AscendingAdd40Depth1()
    ensures AddElement(Leaf(30, 30), 40, 40)
            == Ok((Node(Nil, 30, 30, 2, Leaf(40, 40)), 1))
  {
    assert Settle(Node(Nil, 30, 30, 1, Leaf(40, 40))) == Ok(Node(Nil, 30, 30, 2, Leaf(40, 40)));
  }
  lemma AscendingAdd40Depth0()
    ensures AddElement(Node(Node(Nil, 10, 10, 3, Nil), 20, 20, 2, Leaf(30, 30)), 40, 40)
            == Ok((Node(Node(Nil, 10, 10, 3, Nil), 20, 20, 4, Node(Nil, 30, 30, 2, Leaf(40, 40))), 1))
  {
    AscendingAdd40Depth1();
    assert Settle(Node(Node(Nil, 10, 10, 3, Nil), 20, 20, 2, Node(Nil, 30, 30, 2, Leaf(40, 40)))) == Ok(Node(Node(Nil, 10, 10, 3, Nil), 20, 20, 4, Node(Nil, 30, 30, 2, Leaf(40, 40))));
  }
  /** Adding 40 as the fourth key. */
  lemma AscendingAdd40()
    ensures Add(AvlMap(Node(Node(Nil, 10, 10, 3, Nil), 20, 20, 2, Leaf(30, 30)), 3), 40, 40)
            == Ok((AvlMap(Node(Node(Nil, 10, 10, 3, Nil), 20, 20, 4, Node(Nil, 30, 30, 2, Leaf(40, 40))), 4), true))
  {
    AscendingAdd40Depth0();
  }

  lemma AscendingAdd50Depth2()
    ensures AddElement(Leaf(40, 40), 50, 50)
            == Ok((Node(Nil, 40, 40, 2, Leaf(50, 50)), 1))
  {
    assert Settle(Node(Nil, 40, 40, 1, Leaf(50, 50))) == Ok(Node(Nil, 40, 40, 2, Leaf(50, 50)));
  }
  lemma AscendingAdd50Depth1Rebalance()
    ensures Rebalance(Node(Nil, 30, 30, 3, Node(Nil, 40, 40, 2, Leaf(50, 50))))
            == Ok((Node(Node(Nil, 30, 30, 3, Nil), 40, 40, 2, Leaf(50, 50)), PromotedRight))
  {
    assert RightRight(Node(Nil, 30, 30, 3, Node(Nil, 40, 40, 2, Leaf(50, 50)))) == Ok(Node(Node(Nil, 30, 30, 3, Nil), 40, 40, 2, Leaf(50, 50)));
  }
  lemma AscendingAdd50Depth1()
    ensures AddElement(Node(Nil, 30, 30, 2, Leaf(40, 40)), 50, 50)
            == Ok((Node(Node(Nil, 30, 30, 3, Nil), 40, 40, 2, Leaf(50, 50)), 1))
  {
    AscendingAdd50Depth2();
    AscendingAdd50Depth1Rebalance();
    assert FixHeight(Node(Nil, 30, 30, 2, Node(Nil, 40, 40, 2, Leaf(50, 50)))) == Node(Nil, 30, 30, 3, Node(Nil, 40, 40, 2, Leaf(50, 50)));
    assert Settle(Node(Nil, 30, 30, 2, Node(Nil, 40, 40, 2, Leaf(50, 50)))) == Ok(Node(Node(Nil, 30, 30, 3, Nil), 40, 40, 2, Leaf(50, 50)));
  }
  lemma AscendingAdd50Depth0()
    ensures AddElement(Node(Node(Nil, 10, 10, 3, Nil), 20, 20, 4, Node(Nil, 30, 30, 2, Leaf(40, 40))), 50, 50)
            == Ok((Node(Node(Nil, 10, 10, 3, Nil), 20, 20, 4, Node(Node(Nil, 30, 30, 3, Nil), 40, 40, 2, Leaf(50, 50))), 1))
  {
    AscendingAdd50Depth1();
    assert Settle(Node(Node(Nil, 10, 10, 3, Nil), 20, 20, 4, Node(Node(Nil, 30, 30, 3, Nil), 40, 40, 2, Leaf(50, 50)))) == Ok(Node(Node(Nil, 10, 10, 3, Nil), 20, 20, 4, Node(Node(Nil, 30, 30, 3, Nil), 40, 40, 2, Leaf(50, 50))));
  }
  /** Adding 50 as the fifth key. */
  lemma AscendingAdd50()
    ensures Add(AvlMap(Node(Node(Nil, 10, 10, 3, Nil), 20, 20, 4, Node(Nil, 30, 30, 2, Leaf(40, 40))), 4), 50, 50)
            == Ok((AvlMap(Node(Node(Nil, 10, 10, 3, Nil), 20, 20, 4, Node(Node(Nil, 30, 30, 3, Nil), 40, 40, 2, Leaf(50, 50))), 5), true))
  {
    AscendingAdd50Depth0();
  }

  lemma AscendingAdd60Depth2()
    ensures AddElement(Leaf(50, 50), 60, 60)
            == Ok((Node(Nil, 50, 50, 2, Leaf(60, 60)), 1))
  {
    assert Settle(Node(Nil, 50, 50, 1, Leaf(60, 60))) == Ok(Node(Nil, 50, 50, 2, Leaf(60, 60)));
  }
  lemma AscendingAdd60Depth1()
    ensures AddElement(Node(Node(Nil, 30, 30, 3, Nil), 40, 40, 2, Leaf(50, 50)), 60, 60)
            == Ok((Node(Node(Nil, 30, 30, 3, Nil), 40, 40, 4, Node(Nil, 50, 50, 2, Leaf(60, 60))), 1))
  {
    AscendingAdd60Depth2();
    assert Settle(Node(Node(Nil, 30, 30, 3, Nil), 40, 40, 2, Node(Nil, 50, 50, 2, Leaf(60, 60)))) == Ok(Node(Node(Nil, 30, 30, 3, Nil), 40, 40, 4, Node(Nil, 50, 50, 2, Leaf(60, 60))));
  }
  lemma AscendingAdd60Depth0()
    ensures AddElement(Node(Node(Nil, 10, 10, 3, Nil), 20, 20, 4, Node(Node(Nil, 30, 30, 3, Nil), 40, 40, 2, Leaf(50, 50))), 60, 60)
            == Ok((Node(Node(Nil, 10, 10, 3, Nil), 20, 20, 5, Node(Node(Nil, 30, 30, 3, Nil), 40, 40, 4, Node(Nil, 50, 50, 2, Leaf(60, 60)))), 1))
  {
    AscendingAdd60Depth1();
    assert Settle(Node(Node(Nil, 10, 10, 3, Nil), 20, 20, 4, Node(Node(Nil, 30, 30, 3, Nil), 40, 40, 4, Node(Nil, 50, 50, 2, Leaf(60, 60))))) == Ok(Node(Node(Nil, 10, 10, 3, Nil), 20, 20, 5, Node(Node(Nil, 30, 30, 3, Nil), 40, 40, 4, Node(Nil, 50, 50, 2, Leaf(60, 60)))));
  }
  /** Adding 60 as the sixth key. */
  lemma AscendingAdd60()
    ensures Add(AvlMap(Node(Node(Nil, 10, 10, 3, Nil), 20, 20, 4, Node(Node(Nil, 30, 30, 3, Nil), 40, 40, 2, Leaf(50, 50))), 5), 60, 60)
            == Ok((AvlMap(Node(Node(Nil, 10, 10, 3, Nil), 20, 20, 5, Node(Node(Nil, 30, 30, 3, Nil), 40, 40, 4, Node(Nil, 50, 50, 2, Leaf(60, 60)))), 6), true))
  {
    AscendingAdd60Depth0();
  }

  lemma TwentyFirstAdd10Depth0()
    ensures AddElement(Leaf(20, 20), 10, 10)
            == Ok((Node(Leaf(10, 10), 20, 20, 2, Nil), 1))
  {
    assert Settle(Node(Leaf(10, 10), 20, 20, 1, Nil)) == Ok(Node(Leaf(10, 10), 20, 20, 2, Nil));
  }
  /** Adding 10 as the second key. */
  lemma TwentyFirstAdd10()
    ensures Add(AvlMap(Leaf(20, 20), 1), 10, 10)
            == Ok((AvlMap(Node(Leaf(10, 10), 20, 20, 2, Nil), 2), true))
  {
    TwentyFirstAdd10Depth0();
  }

  lemma TwentyFirstAdd30Depth0()
    ensures AddElement(Node(Leaf(10, 10), 20, 20, 2, Nil), 30, 30)
            == Ok((Node(Leaf(10, 10), 20, 20, 2, Leaf(30, 30)), 1))
  {
    assert Settle(Node(Leaf(10, 10), 20, 20, 2, Leaf(30, 30))) == Ok(Node(Leaf(10, 10), 20, 20, 2, Leaf(30, 30)));
  }
  /** Adding 30 as the third key. */
  lemma TwentyFirstAdd30()
    ensures Add(AvlMap(Node(Leaf(10, 10), 20, 20, 2, Nil), 2), 30, 30)
            == Ok((AvlMap(Node(Leaf(10, 10), 20, 20, 2, Leaf(30, 30)), 3), true))
  {
    TwentyFirstAdd30Depth0();
  }

  lemma TwentyFirstAdd40Depth0()
    ensures AddElement(Node(Leaf(10, 10), 20, 20, 2, Leaf(30, 30)), 40, 40)
            == Ok((Node(Leaf(10, 10), 20, 20, 3, Node(Nil, 30, 30, 2, Leaf(40, 40))), 1))
  {
    AscendingAdd40Depth1();
    assert Settle(Node(Leaf(10, 10), 20, 20, 2, Node(Nil, 30, 30, 2, Leaf(40, 40)))) == Ok(Node(Leaf(10, 10), 20, 20, 3, Node(Nil, 30, 30, 2, Leaf(40, 40))));
  }
  /** Adding 40 as the fourth key. */
  lemma TwentyFirstAdd40()
    ensures Add(AvlMap(Node(Leaf(10, 10), 20, 20, 2, Leaf(30, 30)), 3), 40, 40)
            == Ok((AvlMap(Node(Leaf(10, 10), 20, 20, 3, Node(Nil, 30, 30, 2, Leaf(40, 40))), 4), true))
  {
    TwentyFirstAdd40Depth0();
  }

  lemma TwentyFirstAdd50Depth0()
    ensures AddElement(Node(Leaf(10, 10), 20, 20, 3, Node(Nil, 30, 30, 2, Leaf(40, 40))), 50, 50)
            == Ok((Node(Leaf(10, 10), 20, 20, 3, Node(Node(Nil, 30, 30, 3, Nil), 40, 40, 2, Leaf(50, 50))), 1))
  {
    AscendingAdd50Depth1();
    assert Settle(Node(Leaf(10, 10), 20, 20, 3, Node(Node(Nil, 30, 30, 3, Nil), 40, 40, 2, Leaf(50, 50)))) == Ok(Node(Leaf(10, 10), 20, 20, 3, Node(Node(Nil, 30, 30, 3, Nil), 40, 40, 2, Leaf(50, 50))));
  }
  /** Adding 50 as the fifth key. */
  lemma TwentyFirstAdd50()
    ensures Add(AvlMap(Node(Leaf(10, 10), 20, 20, 3, Node(Nil, 30, 30, 2, Leaf(40, 40))), 4), 50, 50)
            == Ok((AvlMap(Node(Leaf(10, 10), 20, 20, 3, Node(Node(Nil, 30, 30, 3, Nil), 40, 40, 2, Leaf(50, 50))), 5), true))
  {
    TwentyFirstAdd50Depth0();
  }

  lemma TwentyFirstAdd60Depth0Rebalance()
    ensures Rebalance(Node(Leaf(10, 10), 20, 20, 5, Node(Node(Nil, 30, 30, 3, Nil), 40, 40, 4, Node(Nil, 50, 50, 2, Leaf(60, 60)))))
            == Ok((Node(Nil, 10, 10, 1, Node(Nil, 20, 20, 5, Node(Node(Node(Nil, 30, 30, 3, Nil), 40, 40, 4, Nil), 50, 50, 2, Leaf(60, 60)))), PromotedLeft))
  {
    assert RightRight(Node(Node(Nil, 30, 30, 3, Nil), 40, 40, 4, Node(Nil, 50, 50, 2, Leaf(60, 60)))) == Ok(Node(Node(Node(Nil, 30, 30, 3, Nil), 40, 40, 4, Nil), 50, 50, 2, Leaf(60, 60)));
    assert LeftLeft(Node(Leaf(10, 10), 20, 20, 5, Node(Node(Node(Nil, 30, 30, 3, Nil), 40, 40, 4, Nil), 50, 50, 2, Leaf(60, 60)))) == Ok(Node(Nil, 10, 10, 1, Node(Nil, 20, 20, 5, Node(Node(Node(Nil, 30, 30, 3, Nil), 40, 40, 4, Nil), 50, 50, 2, Leaf(60, 60)))));
  }
  lemma TwentyFirstAdd60Depth0()
    ensures AddElement(Node(Leaf(10, 10), 20, 20, 3, Node(Node(Nil, 30, 30, 3, Nil), 40, 40, 2, Leaf(50, 50))), 60, 60)
            == Ok((Node(Nil, 10, 10, 1, Node(Nil, 20, 20, 5, Node(Node(Node(Nil, 30, 30, 3, Nil), 40, 40, 4, Nil), 50, 50, 2, Leaf(60, 60)))), 1))
  {
    AscendingAdd60Depth1();
    TwentyFirstAdd60Depth0Rebalance();
    assert FixHeight(Node(Leaf(10, 10), 20, 20, 3, Node(Node(Nil, 30, 30, 3, Nil), 40, 40, 4, Node(Nil, 50, 50, 2, Leaf(60, 60))))) == Node(Leaf(10, 10), 20, 20, 5, Node(Node(Nil, 30, 30, 3, Nil), 40, 40, 4, Node(Nil, 50, 50, 2, Leaf(60, 60))));
    assert Settle(Node(Leaf(10, 10), 20, 20, 3, Node(Node(Nil, 30, 30, 3, Nil), 40, 40, 4, Node(Nil, 50, 50, 2, Leaf(60, 60))))) == Ok(Node(Nil, 10, 10, 1, Node(Nil, 20, 20, 5, Node(Node(Node(Nil, 30, 30, 3, Nil), 40, 40, 4, Nil), 50, 50, 2, Leaf(60, 60)))));
  }
  /** Adding 60 as the sixth key. */
  lemma TwentyFirstAdd60()
    ensures Add(AvlMap(Node(Leaf(10, 10), 20, 20, 3, Node(Node(Nil, 30, 30, 3, Nil), 40, 40, 2, Leaf(50, 50))), 5), 60, 60)
            == Ok((AvlMap(Node(Nil, 10, 10, 1, Node(Nil, 20, 20, 5, Node(Node(Node(Nil, 30, 30, 3, Nil), 40, 40, 4, Nil), 50, 50, 2, Leaf(60, 60)))), 6), true))
  {
    TwentyFirstAdd60Depth0();
  }

  lemma DescendingAdd10Depth0()
    ensures AddElement(Leaf(30, 30), 10, 10)
            == Ok((Node(Leaf(10, 10), 30, 30, 2, Nil), 1))
  {
    assert Settle(Node(Leaf(10, 10), 30, 30, 1, Nil)) == Ok(Node(Leaf(10, 10), 30, 30, 2, Nil));
  }
  /** Adding 10 as the second key. */
  lemma DescendingAdd10()
    ensures Add(AvlMap(Leaf(30, 30), 1), 10, 10)
            == Ok((AvlMap(Node(Leaf(10, 10), 30, 30, 2, Nil), 2), true))
  {
    DescendingAdd10Depth0();
  }


  // ---------------------------------------------------------------------------
  // Traces
  // ---------------------------------------------------------------------------

  /** The tree that adding 10, 20, 30 leaves: root 20, and leaf 10 still stores height 3. */
  function TenTwentyThirty(): Tree<int> {
    Node(Node(Nil, 10, 10, 3, Nil), 20, 20, 2, Leaf(30, 30))
  }

  /**
   Adding 10, 20, 30 takes the right-right branch at 10: 20 becomes the root
   with children 10 and 30, but `rightRight` leaves 10's stored height at 3.
   */
  lemma AscendingThreeLeavesStaleHeight()
    ensures AddAll(EmptyMap(), [10, 20, 30]) == Ok(AvlMap(TenTwentyThirty(), 3))
    ensures !HeightsExact(TenTwentyThirty())
  {
    AddIntoEmpty(10);
    AscendingAdd20();
    AscendingAdd30();
    AddAllThree(EmptyMap(), 10, 20, 30, AvlMap(Leaf(10, 10), 1), AvlMap(Node(Nil, 10, 10, 2, Leaf(20, 20)), 2),
                AvlMap(TenTwentyThirty(), 3));
  }

  /**
   The unwind at 30 after 20 went below 10: the stored balance is 2 and the left
   child's is -1, so the left-right branch applies `leftLeft` to node 10, which
   has no left child.
   */
  lemma DescendingAdd20Depth0Rebalance()
    ensures Rebalance(Node(Node(Nil, 10, 10, 2, Leaf(20, 20)), 30, 30, 3, Nil)) == Err(NullPointer)
  {
    assert LeftLeft(Node(Nil, 10, 10, 2, Leaf(20, 20))) == Err(NullPointer);
  }

  lemma DescendingAdd20Depth0()
    ensures AddElement(Node(Leaf(10, 10), 30, 30, 2, Nil), 20, 20) == Err(NullPointer)
  {
    AscendingAdd20Depth0();
    DescendingAdd20Depth0Rebalance();
    assert FixHeight(Node(Node(Nil, 10, 10, 2, Leaf(20, 20)), 30, 30, 2, Nil))
           == Node(Node(Nil, 10, 10, 2, Leaf(20, 20)), 30, 30, 3, Nil);
    assert Settle(Node(Node(Nil, 10, 10, 2, Leaf(20, 20)), 30, 30, 2, Nil)) == Err(NullPointer);
  }

  lemma DescendingAdd20()
    ensures Add(AvlMap(Node(Leaf(10, 10), 30, 30, 2, Nil), 2), 20, 20) == Err(NullPointer)
  {
    DescendingAdd20Depth0();
  }

  /**
   Adding 30, 10, 20 reaches the left-right case at 30, which applies
   `leftLeft` to node 10; node 10 has no left child, so the call throws.
   */
  lemma LeftRightCaseThrows()
    ensures AddAll(EmptyMap(), [30, 10, 20]) == Err(NullPointer)
  {
    AddIntoEmpty(30);
    DescendingAdd10();
    DescendingAdd20();
    AddAllThreeThrows(EmptyMap(), 30, 10, 20, AvlMap(Leaf(30, 30), 1), AvlMap(Node(Leaf(10, 10), 30, 30, 2, Nil), 2),
                      NullPointer);
  }

  /** The tree that adding 10, 20, 30, 40, 50, 60 leaves. */
  function AscendingSix(): Tree<int> {
    Node(Node(Nil, 10, 10, 3, Nil), 20, 20, 5,
         Node(Node(Nil, 30, 30, 3, Nil), 40, 40, 4, Node(Nil, 50, 50, 2, Leaf(60, 60))))
  }

  /** In that tree the root's subtrees have true heights 1 and 3. */
  lemma AscendingSixShape()
    ensures !Balanced(AscendingSix())
  {
    assert TrueHeight(AscendingSix().left) == 1 && TrueHeight(AscendingSix().right) == 3;
  }

  /**
   Adding 10 to 60 in ascending order ends with root 20 whose left subtree has
   height 1 and right subtree height 3: the AVL condition fails although the
   search order holds.
   */
  lemma AscendingSixUnbalanced()
    ensures AddAll(EmptyMap(), [10, 20, 30, 40, 50, 60]) == Ok(AvlMap(AscendingSix(), 6))
  {
    AddIntoEmpty(10);
    AscendingAdd20();
    AscendingAdd30();
    AscendingAdd40();
    AscendingAdd50();
    AscendingAdd60();
    AddAllSix(EmptyMap(), 10, 20, 30, 40, 50, 60,
              AvlMap(Leaf(10, 10), 1),
              AvlMap(Node(Nil, 10, 10, 2, Leaf(20, 20)), 2),
              AvlMap(Node(Node(Nil, 10, 10, 3, Nil), 20, 20, 2, Leaf(30, 30)), 3),
              AvlMap(Node(Node(Nil, 10, 10, 3, Nil), 20, 20, 4, Node(Nil, 30, 30, 2, Leaf(40, 40))), 4),
              AvlMap(Node(Node(Nil, 10, 10, 3, Nil), 20, 20, 4, Node(Node(Nil, 30, 30, 3, Nil), 40, 40, 2, Leaf(50, 50))), 5),
              AvlMap(Node(Node(Nil, 10, 10, 3, Nil), 20, 20, 5,
                          Node(Node(Nil, 30, 30, 3, Nil), 40, 40, 4, Node(Nil, 50, 50, 2, Leaf(60, 60)))), 6));
  }

  /**
   A duplicate key neither replaces the stored value nor changes the size,
   and `add` still reports true.
   */
  lemma DuplicateAddKeepsValue()
    ensures Add(AvlMap(Leaf(10, 10), 1), 10, 99) == Ok((AvlMap(Leaf(10, 10), 1), true))
  {
  }

  /**
   Re-adding the present key 20 to the map that adding 20, 10, 30, 40, 50, 60
   leaves throws: the descent into the right spine rebuilds nothing, but the
   unwind at 20 re-derives its height from its stale children, sees a left
   lean, and `leftLeft` dereferences the absent left child of 20.
   */
  lemma DuplicateAddThrows()
    ensures Add(AvlMap(TwentyFirst(), 6), 20, 20) == Err(NullPointer)
  {
    var n := TwentyFirst().right;
    assert RightRight(n.right) == Ok(Node(Node(Node(Node(Nil, 30, 30, 3, Nil), 40, 40, 4, Nil), 50, 50, 2, Nil), 60, 60, 1, Nil));
    assert FixHeight(n).height == 3;
    assert Rebalance(FixHeight(n)) == Err(NullPointer);
    assert Settle(n) == Err(NullPointer);
    assert AddElement(n, 20, 20) == Err(NullPointer);
  }

  /**
   Removing the only key detaches the leaf but keeps the root handle: `remove`
   reports false, the size drops to 0, and the key is still found.
   */
  lemma RemoveLoneRoot()
    ensures Remove(AvlMap(Leaf(5, 5), 1), 5) == Ok((AvlMap(Leaf(5, 5), 0), false))
    ensures ExistsElement(Leaf(5, 5), 5) && Count(Leaf(5, 5)) != 0
  {
  }

  /**
   Removing the only key twice: each call finds the key under the kept root
   handle and counts it off again, so the size goes negative.
   */
  lemma RemoveLoneRootTwice()
    ensures Remove(AvlMap(Leaf(5, 5), 1), 5) == Ok((AvlMap(Leaf(5, 5), 0), false))
    ensures Remove(AvlMap(Leaf(5, 5), 0), 5) == Ok((AvlMap(Leaf(5, 5), -1), false))
  {
    RemoveLoneRoot();
  }

  /** Removing 30 from the tree built from 10, 20, 30 ends in `leftLeft` at the root. */
  lemma RemoveThirtyRotates()
    ensures RemoveElement(TenTwentyThirty(), 30)
            == Ok(Removal(Node(Nil, 10, 10, 3, Node(Nil, 20, 20, 2, Nil)), PromotedLeft, 1))
  {
    assert RemoveElement(Leaf(30, 30), 30) == Ok(Removal(Nil, Detached, 1));
    assert LeftLeft(Node(Node(Nil, 10, 10, 3, Nil), 20, 20, 2, Nil)) == Ok(Node(Nil, 10, 10, 3, Node(Nil, 20, 20, 2, Nil)));
    assert Rebalance(Node(Node(Nil, 10, 10, 3, Nil), 20, 20, 2, Nil))
           == Ok((Node(Nil, 10, 10, 3, Node(Nil, 20, 20, 2, Nil)), PromotedLeft));
  }

  /**
   After adding 10, 20, 30, removing 30 rotates at the root with `leftLeft`;
   the handle keeps the old root node 20, now a leaf, so key 10 is lost
   although the size says 2.
   */
  lemma RemoveKeepsDemotedRoot()
    ensures Remove(AvlMap(TenTwentyThirty(), 3), 30) == Ok((AvlMap(Node(Nil, 20, 20, 2, Nil), 2), true))
    ensures Keys(Node(Nil, 20, 20, 2, Nil)) == {20} && !ExistsElement(Node(Nil, 20, 20, 2, Nil), 10)
    ensures Count(Node(Nil, 20, 20, 2, Nil)) != 2
  {
    RemoveThirtyRotates();
  }

  /**
   Removing the root of the tree built from 10, 20, 30 copies the predecessor's
   key 10 into the root but keeps 20's value: key 10 now maps to 20.
   */
  lemma RemoveTwoChildrenKeepsOldValue()
    ensures Remove(AvlMap(TenTwentyThirty(), 3), 20)
            == Ok((AvlMap(Node(Nil, 10, 20, 2, Leaf(30, 30)), 2), true))
    ensures GetElement(Node(Nil, 10, 20, 2, Leaf(30, 30)), 10) == Some(20)
  {
    assert FindBiggest(TenTwentyThirty().left) == Ok(10);
    assert RemoveElement(Node(Nil, 10, 10, 3, Nil), 10) == Ok(Removal(Nil, Detached, 1));
  }

  /** Removing an absent key throws "node not found". */
  lemma RemoveAbsentKeyThrows()
    ensures Remove(AvlMap(TenTwentyThirty(), 3), 99) == Err(NoSuchElement)
  {
  }

  /** The tree that adding 20, 10, 30, 40, 50, 60 leaves: the final right-left case promotes 10 to the root. */
  function TwentyFirst(): Tree<int> {
    Node(Nil, 10, 10, 1,
         Node(Nil, 20, 20, 5, Node(Node(Node(Nil, 30, 30, 3, Nil), 40, 40, 4, Nil), 50, 50, 2, Leaf(60, 60))))
  }

  /**
   Adding 20, 10, 30, 40, 50, 60 ends in the right-left case at 20, which
   rotates the wrong way round and leaves 10 as a root without a left subtree
   over a right subtree of height 4.
   */
  lemma TwentyFirstUnbalanced()
    ensures AddAll(EmptyMap(), [20, 10, 30, 40, 50, 60]) == Ok(AvlMap(TwentyFirst(), 6))
  {
    AddIntoEmpty(20);
    TwentyFirstAdd10();
    TwentyFirstAdd30();
    TwentyFirstAdd40();
    TwentyFirstAdd50();
    TwentyFirstAdd60();
    AddAllSix(EmptyMap(), 20, 10, 30, 40, 50, 60,
              AvlMap(Leaf(20, 20), 1),
              AvlMap(Node(Leaf(10, 10), 20, 20, 2, Nil), 2),
              AvlMap(Node(Leaf(10, 10), 20, 20, 2, Leaf(30, 30)), 3),
              AvlMap(Node(Leaf(10, 10), 20, 20, 3, Node(Nil, 30, 30, 2, Leaf(40, 40))), 4),
              AvlMap(Node(Leaf(10, 10), 20, 20, 3, Node(Node(Nil, 30, 30, 3, Nil), 40, 40, 2, Leaf(50, 50))), 5),
              AvlMap(Node(Nil, 10, 10, 1, Node(Nil, 20, 20, 5,
                          Node(Node(Node(Nil, 30, 30, 3, Nil), 40, 40, 4, Nil), 50, 50, 2, Leaf(60, 60)))), 6));
  }

  /** In that tree the root has no left subtree over a right subtree of height 4. */
  lemma TwentyFirstShape()
    ensures !Balanced(TwentyFirst())
  {
    assert TrueHeight(TwentyFirst().right) == 4;
  }

  /** Removing 20 from its node, which has only the right child 50, keeps 50's right subtree only. */
  lemma RemoveTwentyBelowRoot()
    ensures RemoveElement(TwentyFirst().right, 20) == Ok(Removal(Node(Nil, 50, 20, 5, Leaf(60, 60)), Kept, 1))
  {
  }

  /** The unwind at the root then takes the right-right branch. */
  lemma RemoveTwentyRotates()
    ensures RemoveElement(TwentyFirst(), 20) == Ok(Removal(Node(Leaf(10, 10), 50, 20, 5, Leaf(60, 60)), PromotedRight, 1))
  {
    RemoveTwentyBelowRoot();
    assert RightRight(Node(Nil, 10, 10, 1, Node(Nil, 50, 20, 5, Leaf(60, 60))))
           == Ok(Node(Leaf(10, 10), 50, 20, 5, Leaf(60, 60)));
    assert Rebalance(Node(Nil, 10, 10, 1, Node(Nil, 50, 20, 5, Leaf(60, 60))))
           == Ok((Node(Leaf(10, 10), 50, 20, 5, Leaf(60, 60)), PromotedRight));
  }

  /**
   In that tree node 20 has only a right child, 50, which has a left subtree.
   Removing 20 copies key 50, but not its value, into node 20 and adopts 50's
   right subtree, so keys 30 and 40 vanish from the rebuilt tree; a right-right
   case then leaves the root handle on the demoted leaf 10. The size drops by one.
   */
  lemma RemoveOneChildDropsSubtree()
    ensures Keys(Node(Leaf(10, 10), 50, 20, 5, Leaf(60, 60))) == {10, 50, 60}
    ensures Remove(AvlMap(TwentyFirst(), 6), 20) == Ok((AvlMap(Leaf(10, 10), 5), true))
  {
    RemoveTwentyRotates();
  }
}

=== FILE: avl_tree.dfy ===
/**
 The AVL map: a binary search tree whose nodes carry a stored height, a size
 counter, two single rotations, and recursive insertion and removal that
 rebalance on the way back up.

 The tree is modelled as an immutable value. A node's `height` is a stored
 field, exactly as in the Java class: it is rewritten only on the insertion
 unwind, never by a rotation and never by a removal. Every dereference of a
 null node becomes `Err(NullPointer)`.
 */
module AvlTree {
  import opened Outcomes

  /** A subtree: absent (null) or a node with its own stored height. */
  datatype Tree<V> = Nil | Node(left: Tree<V>, key: int, value: V, height: int, right: Tree<V>)

  /** The slots of one node, as listed in key order by `Entries`. */
  datatype Entry<V> = Entry(key: int, value: V, height: int)

  /** What became of the node an unwind step started from. */
  datatype Restructure =
    | Kept           // it is still the root of the returned subtree
    | PromotedLeft   // `leftLeft` ran last: it is now the right child of the returned root
    | PromotedRight  // `rightRight` ran last: it is now the left child of the returned root
    | Detached       // it was a lone leaf; null was returned and the node itself is untouched

  /** The result of one removal step: the subtree to reattach and how many keys were counted off. */
  datatype Removal<V> = Removal(tree: Tree<V>, fate: Restructure, removed: int)

  /** The map object: the root handle and the size counter (`size()` reads it). */
  datatype AvlMap<V> = AvlMap(root: Tree<V>, size: int)

  /** A freshly created node: no children, stored height 1. */
  function Leaf<V>(k: int, v: V): Tree<V> {
    Node(Nil, k, v, 1, Nil)
  }

  /** The map as constructed: no root and size 0. */
  function EmptyMap<V>(): AvlMap<V> {
    AvlMap(Nil, 0)
  }

  function Max(a: int, b: int): int {
    if a < b then b else a
  }

  // ---------------------------------------------------------------------------
  // Abstractions of a tree
  // ---------------------------------------------------------------------------

  /** The keys stored anywhere in the tree. */
  ghost function Keys<V>(t: Tree<V>): set<int> {
    match t
    case Nil => {}
    case Node(l, k, _, _, r) => Keys(l) + {k} + Keys(r)
  }

  /** The keys in in-order (left, node, right) sequence. */
  ghost function InOrder<V>(t: Tree<V>): seq<int> {
    match t
    case Nil => []
    case Node(l, k, _, _, r) => InOrder(l) + [k] + InOrder(r)
  }

  /** Every node's key, value and stored height, in in-order sequence. */
  ghost function Entries<V>(t: Tree<V>): seq<Entry<V>> {
    match t
    case Nil => []
    case Node(l, k, v, h, r) => Entries(l) + [Entry(k, v, h)] + Entries(r)
  }

  /** The key/value pairs held by the nodes. */
  ghost function Bindings<V>(t: Tree<V>): (b: set<(int, V)>)
    ensures forall p :: p in b ==> p.0 in Keys(t)
  {
    match t
    case Nil => {}
    case Node(l, k, v, _, r) => Bindings(l) + {(k, v)} + Bindings(r)
  }

  /** The tree with values erased: its shape, keys and stored heights. */
  ghost function Skeleton<V>(t: Tree<V>): Tree<()> {
    match t
    case Nil => Nil
    case Node(l, k, _, h, r) => Node(Skeleton(l), k, (), h, Skeleton(r))
  }

  /** The number of nodes reachable from `t`. */
  ghost function Count<V>(t: Tree<V>): nat {
    match t
    case Nil => 0
    case Node(l, _, _, _, r) => Count(l) + 1 + Count(r)
  }

  /** Binary-search-tree order: left keys below the node's key, right keys above it. */
  ghost predicate IsBST<V>(t: Tree<V>) {
    match t
    case Nil => true
    case Node(l, k, _, _, r) =>
      && IsBST(l) && IsBST(r)
      && (forall x :: x in Keys(l) ==> x < k)
      && (forall x :: x in Keys(r) ==> k < x)
  }

  /** The height of the subtree, derived from its shape (a leaf has height 1). */
  ghost function TrueHeight<V>(t: Tree<V>): nat {
    match t
    case Nil => 0
    case Node(l, _, _, _, r) => 1 + Max(TrueHeight(l), TrueHeight(r))
  }

  /** Every node's stored height equals the height of its subtree. */
  ghost predicate HeightsExact<V>(t: Tree<V>) {
    match t
    case Nil => true
    case Node(l, _, _, h, r) => h == TrueHeight(t) && HeightsExact(l) && HeightsExact(r)
  }

  /** The AVL condition on true heights, at every node. */
  ghost predicate Balanced<V>(t: Tree<V>) {
    match t
    case Nil => true
    case Node(l, _, _, _, r) =>
      -1 <= TrueHeight(l) - TrueHeight(r) <= 1 && Balanced(l) && Balanced(r)
  }

  /** `b` holds the same nodes as `a`, with the same slots, in the same key order. */
  ghost predicate Relinked<V>(a: Tree<V>, b: Tree<V>) {
    && Entries(a) == Entries(b)
    && InOrder(a) == InOrder(b)
    && Keys(a) == Keys(b)
    && Bindings(a) == Bindings(b)
  }

  /** Both trees are nodes carrying the same key, value and stored height. */
  ghost predicate SameSlots<V>(a: Tree<V>, b: Tree<V>) {
    a.Node? && b.Node? && a.key == b.key && a.value == b.value && a.height == b.height
  }

  /**
   Both trees are nodes carrying the same value and stored height: what is left
   of a node whose key a removal may have overwritten.
   */
  ghost predicate SameValueAndHeight<V>(a: Tree<V>, b: Tree<V>) {
    a.Node? && b.Node? && a.value == b.value && a.height == b.height
  }

  ghost predicate Increasing(s: seq<int>) {
    forall i, j :: 0 <= i < j < |s| ==> s[i] < s[j]
  }

  // ---------------------------------------------------------------------------
  // Search order and in-order sequence
  // ---------------------------------------------------------------------------

  lemma {:induction false} InOrderHoldsKeys<V>(t: Tree<V>)
    ensures forall x :: x in InOrder(t) <==> x in Keys(t)
  {
    match t
    case Nil =>
    case Node(l, k, _, _, r) =>
      InOrderHoldsKeys(l);
      InOrderHoldsKeys(r);
  }

  /** An increasing sequence around `k` splits into increasing parts below and above `k`. */
  lemma IncreasingAroundSplits(a: seq<int>, k: int, b: seq<int>)
    requires Increasing(a + [k] + b)
    ensures Increasing(a) && Increasing(b)
    ensures forall x :: x in a ==> x < k
    ensures forall x :: x in b ==> k < x
  {
    var s := a + [k] + b;
    forall i, j | 0 <= i < j < |a| ensures a[i] < a[j] {
      assert s[i] == a[i] && s[j] == a[j];
    }
    forall i, j | 0 <= i < j < |b| ensures b[i] < b[j] {
      assert s[|a| + 1 + i] == b[i] && s[|a| + 1 + j] == b[j];
    }
    forall x | x in a ensures x < k {
      var i :| 0 <= i < |a| && a[i] == x;
      assert s[i] == x && s[|a|] == k;
    }
    forall x | x in b ensures k < x {
      var i :| 0 <= i < |b| && b[i] == x;
      assert s[|a| + 1 + i] == x && s[|a|] == k;
    }
  }

  /** Increasing parts below and above `k` join into an increasing sequence around `k`. */
  lemma IncreasingAroundJoins(a: seq<int>, k: int, b: seq<int>)
    requires Increasing(a) && Increasing(b)
    requires forall x :: x in a ==> x < k
    requires forall x :: x in b ==> k < x
    ensures Increasing(a + [k] + b)
  {
    var s := a + [k] + b;
    forall i, j | 0 <= i < j < |s| ensures s[i] < s[j] {
      if j < |a| {
        assert s[i] == a[i] && s[j] == a[j];
      } else if i < |a| {
        assert s[i] == a[i] && a[i] in a;
        if j > |a| {
          assert s[j] == b[j - |a| - 1] && b[j - |a| - 1] in b;
        }
      } else if i == |a| {
        assert s[j] == b[j - |a| - 1] && b[j - |a| - 1] in b;
      } else {
        assert s[i] == b[i - |a| - 1] && s[j] == b[j - |a| - 1];
      }
    }
  }

  lemma IncreasingAround(a: seq<int>, k: int, b: seq<int>)
    ensures Increasing(a + [k] + b) <==>
      && Increasing(a) && Increasing(b)
      && (forall x :: x in a ==> x < k)
      && (forall x :: x in b ==> k < x)
  {
    if Increasing(a + [k] + b) {
      IncreasingAroundSplits(a, k, b);
    }
    if && Increasing(a) && Increasing(b)
       && (forall x :: x in a ==> x < k)
       && (forall x :: x in b ==> k < x)
    {
      IncreasingAroundJoins(a, k, b);
    }
  }

  /** Search order is exactly a strictly increasing in-order key sequence. */
  lemma {:induction false} SearchOrderIsSortedInOrder<V>(t: Tree<V>)
    ensures IsBST(t) <==> Increasing(InOrder(t))
  {
    match t
    case Nil =>
    case Node(l, k, _, _, r) =>
      SearchOrderIsSortedInOrder(l);
      SearchOrderIsSortedInOrder(r);
      InOrderHoldsKeys(l);
      InOrderHoldsKeys(r);
      IncreasingAround(InOrder(l), k, InOrder(r));
  }

  /** Two trees with the same in-order key sequence are both search trees or neither is. */
  lemma SameInOrderSameSearchOrder<V>(a: Tree<V>, b: Tree<V>)
    requires InOrder(a) == InOrder(b)
    ensures IsBST(a) <==> IsBST(b)
  {
    SearchOrderIsSortedInOrder(a);
    SearchOrderIsSortedInOrder(b);
  }

  // ---------------------------------------------------------------------------
  // Heights and balance factor
  // ---------------------------------------------------------------------------

  /** The height `getBanlance` reads for a child: its stored height, 0 when absent. */
  function StoredHeight<V>(t: Tree<V>): int {
    if t.Nil? then 0 else t.height
  }

  /** `getBanlance`: stored left height minus stored right height; a null node throws. */
  function Balance<V>(t: Tree<V>): (r: Result<int>)
    ensures r.Ok? <==> t.Node?
    ensures r.Err? ==> r.error == NullPointer
  {
    if t.Nil? then Err(NullPointer) else Ok(StoredHeight(t.left) - StoredHeight(t.right))
  }

  /** With exact stored heights the balance factor is the true height difference, within 1 when balanced. */
  lemma BalanceOfExactHeights<V>(t: Tree<V>)
    requires t.Node? && HeightsExact(t)
    ensures Balance(t).value == TrueHeight(t.left) - TrueHeight(t.right)
    ensures Balanced(t) ==> -1 <= Balance(t).value <= 1
  {
    assert HeightsExact(t.left) && HeightsExact(t.right);
  }

  /**
   The height update of the insertion unwind: a node with two children gets one
   more than the larger child height, a node with one child one more than that
   child's, and a node without children keeps its stored height.
   */
  function FixHeight<V>(t: Tree<V>): (r: Tree<V>)
    requires t.Node?
    ensures r.Node? && r.left == t.left && r.right == t.right
    ensures r.key == t.key && r.value == t.value
    ensures t.left.Nil? && t.right.Nil? ==> r == t
    ensures StoredHeight(t.left) >= 0 && StoredHeight(t.right) >= 0 && (t.left.Node? || t.right.Node?)
            ==> r.height == 1 + Max(StoredHeight(t.left), StoredHeight(t.right))
    ensures HeightsExact(t.left) && HeightsExact(t.right) && (t.left.Node? || t.right.Node? || t.height == 1)
            ==> HeightsExact(r)
  {
    if t.left.Node? && t.right.Node? then t.(height := Max(t.left.height, t.right.height) + 1)
    else if t.left.Node? then t.(height := t.left.height + 1)
    else if t.right.Node? then t.(height := t.right.height + 1)
    else t
  }

  // ---------------------------------------------------------------------------
  // Rotations
  // ---------------------------------------------------------------------------

  /**
   `leftLeft`: the left child is promoted, its right subtree moves under the old
   root as that root's new left child. No stored height changes.
   */
  function LeftLeft<V>(t: Tree<V>): (r: Result<Tree<V>>)
    ensures r.Ok? <==> t.Node? && t.left.Node?
    ensures r.Err? ==> r.error == NullPointer
    ensures r.Ok? ==> Relinked(t, r.value)
    ensures r.Ok? && IsBST(t) ==> IsBST(r.value)
    ensures r.Ok? ==> SameSlots(r.value, t.left) && SameSlots(r.value.right, t)
  {
    if t.Nil? || t.left.Nil? then Err(NullPointer)
    else
      var n := t.left;
      var p := Node(n.left, n.key, n.value, n.height, Node(n.right, t.key, t.value, t.height, t.right));
      SameInOrderSameSearchOrder(t, p);
      Ok(p)
  }

  /**
   `rightRight`: the right child is promoted, its left subtree moves under the
   old root as that root's new right child. No stored height changes.
   */
  function RightRight<V>(t: Tree<V>): (r: Result<Tree<V>>)
    ensures r.Ok? <==> t.Node? && t.right.Node?
    ensures r.Err? ==> r.error == NullPointer
    ensures r.Ok? ==> Relinked(t, r.value)
    ensures r.Ok? && IsBST(t) ==> IsBST(r.value)
    ensures r.Ok? ==> SameSlots(r.value, t.right) && SameSlots(r.value.left, t)
  {
    if t.Nil? || t.right.Nil? then Err(NullPointer)
    else
      var n := t.right;
      var p := Node(Node(t.left, t.key, t.value, t.height, n.left), n.key, n.value, n.height, n.right);
      SameInOrderSameSearchOrder(t, p);
      Ok(p)
  }

  /**
   The four-case rebalancing shared by insertion and removal. The cases test the
   stored balance factor of the node, then of its heavy child; the double cases
   first rotate the child with `leftLeft` (left-heavy) or `rightRight`
   (right-heavy) and then rotate the node the other way.
   */
  function Rebalance<V>(t: Tree<V>): (r: Result<(Tree<V>, Restructure)>)
    ensures r.Err? ==> r.error == NullPointer
    ensures r.Ok? ==> t.Node? && r.value.0.Node? && r.value.1 != Detached
    ensures r.Ok? ==> Relinked(t, r.value.0)
    ensures r.Ok? && IsBST(t) ==> IsBST(r.value.0)
    ensures r.Ok? ==> (r.value.1 == Kept <==> -1 <= StoredHeight(t.left) - StoredHeight(t.right) <= 1)
    ensures r.Ok? && r.value.1 == Kept ==> r.value.0 == t
    ensures r.Ok? && r.value.1 == PromotedLeft ==> SameSlots(r.value.0.right, t)
    ensures r.Ok? && r.value.1 == PromotedRight ==> SameSlots(r.value.0.left, t)
  {
    var b :- Balance(t);
    if b > 1 then
      var bl :- Balance(t.left);
      if bl >= 0 then
        Ok((LeftLeft(t).value, PromotedLeft))
      else
        var inner :- LeftLeft(t.left);
        var p :- RightRight(t.(left := inner));
        Ok((p, PromotedRight))
    else if b < -1 then
      var br :- Balance(t.right);
      if br <= 0 then
        Ok((RightRight(t).value, PromotedRight))
      else
        var inner :- RightRight(t.right);
        var p :- LeftLeft(t.(right := inner));
        Ok((p, PromotedLeft))
    else
      Ok((t, Kept))
  }

  // ---------------------------------------------------------------------------
  // Insertion
  // ---------------------------------------------------------------------------

  /** One step of the insertion unwind: fix the node's stored height, then rebalance it. */
  function Settle<V>(t: Tree<V>): (r: Result<Tree<V>>)
    requires t.Node?
    ensures r.Err? ==> r.error == NullPointer
    ensures r.Ok? ==> r.value.Node? && Keys(r.value) == Keys(t) && Bindings(r.value) == Bindings(t)
    ensures r.Ok? && IsBST(t) ==> IsBST(r.value)
  {
    var (p, _) :- Rebalance(FixHeight(t));
    Ok(p)
  }

  /**
   `addElement`: descend by comparison, create a leaf at an empty position (one
   key counted), leave an equal key's node untouched, then fix the height and
   rebalance on the way back up. Returns the new subtree and the count added.
   */
  function AddElement<V>(t: Tree<V>, k: int, v: V): (r: Result<(Tree<V>, int)>)
    ensures r.Err? ==> r.error == NullPointer
    ensures r.Ok? ==> r.value.0.Node? && (r.value.1 == 0 || r.value.1 == 1)
    ensures r.Ok? ==> Keys(r.value.0) == Keys(t) + {k}
    ensures r.Ok? && k !in Keys(t) ==> r.value.1 == 1
    ensures r.Ok? && k in Keys(t) && IsBST(t) ==> r.value.1 == 0
    ensures r.Ok? && IsBST(t) ==> IsBST(r.value.0)
  {
    match t
    case Nil => Ok((Leaf(k, v), 1))
    case Node(l, key, value, h, rt) =>
      if k > key then
        var sub :- AddElement(rt, k, v);
        var n := Node(l, key, value, h, sub.0);
        assert IsBST(t) ==> IsBST(n);
        var p :- Settle(n);
        Ok((p, sub.1))
      else if k < key then
        var sub :- AddElement(l, k, v);
        var n := Node(sub.0, key, value, h, rt);
        assert IsBST(t) ==> IsBST(n);
        var p :- Settle(n);
        Ok((p, sub.1))
      else
        var p :- Settle(t);
        Ok((p, 0))
  }

  /** Insertion adds the one binding of a created node and touches no other binding. */
  lemma {:induction false} AddElementBindings<V>(t: Tree<V>, k: int, v: V)
    ensures AddElement(t, k, v).Ok? ==>
      var (p, added) := AddElement(t, k, v).value;
      Bindings(p) == Bindings(t) + (if added == 1 then {(k, v)} else {})
  {
    match t
    case Nil =>
    case Node(l, key, _, _, rt) =>
      if k > key {
        AddElementBindings(rt, k, v);
      } else if k < key {
        AddElementBindings(l, k, v);
      }
  }

  /** `add`: insert below the root, count the new key, and always report true. */
  function Add<V>(m: AvlMap<V>, k: int, v: V): (r: Result<(AvlMap<V>, bool)>)
    ensures r.Err? ==> r.error == NullPointer
    ensures r.Ok? ==> r.value.1
    ensures r.Ok? ==> Keys(r.value.0.root) == Keys(m.root) + {k}
    ensures r.Ok? && IsBST(m.root) ==> IsBST(r.value.0.root)
    ensures r.Ok? && IsBST(m.root) ==> r.value.0.size == m.size + (if k in Keys(m.root) then 0 else 1)
  {
    var added :- AddElement(m.root, k, v);
    Ok((AvlMap(added.0, m.size + added.1), true))
  }

  // ---------------------------------------------------------------------------
  // Lookup and update
  // ---------------------------------------------------------------------------

  /** `exsitsELement`: true when the descent meets a node with the key. */
  function ExistsElement<V>(t: Tree<V>, k: int): (r: bool)
    ensures r ==> k in Keys(t)
    ensures IsBST(t) ==> (r <==> k in Keys(t))
  {
    match t
    case Nil => false
    case Node(l, key, _, _, rt) =>
      if k > key then ExistsElement(rt, k)
      else if k < key then ExistsElement(l, k)
      else true
  }

  /** `getElement`: the value of the node the descent meets, or null. */
  function GetElement<V>(t: Tree<V>, k: int): (r: Option<V>)
    ensures r.Some? ==> (k, r.value) in Bindings(t)
    ensures IsBST(t) ==> (r.Some? <==> k in Keys(t))
  {
    match t
    case Nil => None
    case Node(l, key, value, _, rt) =>
      if k > key then GetElement(rt, k)
      else if k < key then GetElement(l, k)
      else Some(value)
  }

  /** In a search tree, a lookup finds exactly the value bound to the key. */
  lemma {:induction false} GetFindsBinding<V>(t: Tree<V>, k: int, v: V)
    requires IsBST(t)
    ensures GetElement(t, k) == Some(v) <==> (k, v) in Bindings(t)
  {
    match t
    case Nil =>
    case Node(l, key, value, _, rt) =>
      if k > key {
        GetFindsBinding(rt, k, v);
        assert (k, v) !in Bindings(l);
      } else if k < key {
        GetFindsBinding(l, k, v);
        assert (k, v) !in Bindings(rt);
      } else {
        assert (k, v) !in Bindings(l) && (k, v) !in Bindings(rt);
      }
  }

  /** In two search trees with the same bindings, every lookup agrees. */
  lemma SameBindingsSameLookups<V>(a: Tree<V>, b: Tree<V>, k: int)
    requires IsBST(a) && IsBST(b)
    requires forall v :: (k, v) in Bindings(a) <==> (k, v) in Bindings(b)
    ensures GetElement(a, k) == GetElement(b, k)
  {
    match GetElement(a, k)
    case Some(v) =>
      GetFindsBinding(a, k, v);
      GetFindsBinding(b, k, v);
    case None =>
      match GetElement(b, k)
      case Some(w) =>
        GetFindsBinding(a, k, w);
        GetFindsBinding(b, k, w);
      case None =>
  }

  /**
   `setElement`: overwrite the value of the node the descent meets and report
   true, or report false and change nothing.
   */
  function SetElement<V>(t: Tree<V>, k: int, v: V): (r: (Tree<V>, bool))
    ensures Skeleton(r.0) == Skeleton(t)
    ensures !r.1 ==> r.0 == t
    ensures r.1 ==> k in Keys(t)
    ensures IsBST(t) ==> (r.1 <==> k in Keys(t))
    ensures r.1 ==> GetElement(r.0, k) == Some(v)
    ensures forall x :: x != k ==> GetElement(r.0, x) == GetElement(t, x)
  {
    match t
    case Nil => (Nil, false)
    case Node(l, key, value, h, rt) =>
      if k > key then
        var (sub, found) := SetElement(rt, k, v);
        (Node(l, key, value, h, sub), found)
      else if k < key then
        var (sub, found) := SetElement(l, k, v);
        (Node(sub, key, value, h, rt), found)
      else
        (Node(l, key, v, h, rt), true)
  }

  /** Shape and stored heights are values-blind, so equal skeletons mean equal keys. */
  lemma {:induction false} SkeletonKeepsKeys<V>(a: Tree<V>, b: Tree<V>)
    requires Skeleton(a) == Skeleton(b)
    ensures Keys(a) == Keys(b) && InOrder(a) == InOrder(b) && Count(a) == Count(b)
    ensures IsBST(a) <==> IsBST(b)
  {
    match a
    case Nil =>
    case Node(l, _, _, _, r) =>
      SkeletonKeepsKeys(l, b.left);
      SkeletonKeepsKeys(r, b.right);
  }

  /** `set`: update the value under the root; the size counter is untouched. */
  function Set<V>(m: AvlMap<V>, k: int, v: V): (r: (AvlMap<V>, bool))
    ensures r.0.size == m.size
    ensures Keys(r.0.root) == Keys(m.root) && (IsBST(r.0.root) <==> IsBST(m.root))
    ensures IsBST(m.root) ==> (r.1 <==> k in Keys(m.root))
    ensures r.1 ==> GetElement(r.0.root, k) == Some(v)
    ensures forall x :: x != k ==> GetElement(r.0.root, x) == GetElement(m.root, x)
    ensures Skeleton(r.0.root) == Skeleton(m.root)
    ensures !r.1 ==> r.0 == m
  {
    var (root, found) := SetElement(m.root, k, v);
    SkeletonKeepsKeys(m.root, root);
    (AvlMap(root, m.size), found)
  }

  // ---------------------------------------------------------------------------
  // Removal
  // ---------------------------------------------------------------------------

  /** `findBiggestNode`: follow right children to the end; a null start throws. */
  function FindBiggest<V>(t: Tree<V>): (r: Result<int>)
    ensures r.Ok? <==> t.Node?
    ensures r.Err? ==> r.error == UnsatisfiedLink
    ensures r.Ok? ==> r.value in Keys(t)
    ensures r.Ok? && IsBST(t) ==> forall x :: x in Keys(t) ==> x <= r.value
  {
    if t.Nil? then Err(UnsatisfiedLink)
    else if t.right.Node? then FindBiggest(t.right)
    else Ok(t.key)
  }

  /**
   `removeElement`. A missing key throws "node not found". On the matching node:
   a lone leaf is detached; with one child, the node takes that child's key (not
   its value) and that child's same-side subtree, dropping the child's other
   subtree; with two children, the node takes the largest key of its left
   subtree, keeps its own value, and that key is removed from the left subtree.
   Every visited node that survives is then rebalanced; heights are not updated.
   */
  function RemoveElement<V>(t: Tree<V>, k: int): (r: Result<Removal<V>>)
    ensures k !in Keys(t) ==> r == Err(NoSuchElement)
    ensures r.Err? ==> r.error == NoSuchElement || r.error == NullPointer
    ensures r.Ok? ==> k in Keys(t) && r.value.removed == 1
    ensures r.Ok? ==> Keys(r.value.tree) <= Keys(t)
    ensures r.Ok? ==> (r.value.fate == Detached <==> r.value.tree == Nil)
    ensures r.Ok? && r.value.fate == Detached ==> t.Node? && t.left == Nil && t.right == Nil && t.key == k
    ensures r.Ok? && r.value.fate == PromotedLeft ==> r.value.tree.Node? && r.value.tree.right.Node?
    ensures r.Ok? && r.value.fate == PromotedRight ==> r.value.tree.Node? && r.value.tree.left.Node?
    ensures r.Ok? && r.value.fate == Kept ==>
              t.Node? && r.value.tree.Node? && SameValueAndHeight(r.value.tree, t)
    ensures r.Ok? && r.value.fate == PromotedLeft ==>
              t.Node? && r.value.tree.Node? && SameValueAndHeight(r.value.tree.right, t)
    ensures r.Ok? && r.value.fate == PromotedRight ==>
              t.Node? && r.value.tree.Node? && SameValueAndHeight(r.value.tree.left, t)
  {
    match t
    case Nil => Err(NoSuchElement)
    case Node(l, key, value, h, rt) =>
      if k > key then
        var sub :- RemoveElement(rt, k);
        var (p, fate) :- Rebalance(Node(l, key, value, h, sub.tree));
        Ok(Removal(p, fate, sub.removed))
      else if k < key then
        var sub :- RemoveElement(l, k);
        var (p, fate) :- Rebalance(Node(sub.tree, key, value, h, rt));
        Ok(Removal(p, fate, sub.removed))
      else if l.Nil? && rt.Nil? then
        Ok(Removal(Nil, Detached, 1))
      else if l.Nil? then
        var (p, fate) :- Rebalance(Node(l, rt.key, value, h, rt.right));
        Ok(Removal(p, fate, 1))
      else if rt.Nil? then
        var (p, fate) :- Rebalance(Node(l.left, l.key, value, h, rt));
        Ok(Removal(p, fate, 1))
      else
        var e := FindBiggest(l).value;
        var sub :- RemoveElement(l, e);
        var (p, fate) :- Rebalance(Node(sub.tree, e, value, h, rt));
        Ok(Removal(p, fate, sub.removed))
  }

  /** The search-order facts `RemoveElementKeepsSearchOrder` states, for one subtree and key. */
  ghost predicate RemovalKeepsOrder<V>(t: Tree<V>, k: int) {
    && (IsBST(t) && k in Keys(t) ==> RemoveElement(t, k) != Err(NoSuchElement))
    && (IsBST(t) && RemoveElement(t, k).Ok? ==>
          IsBST(RemoveElement(t, k).value.tree) && k !in Keys(RemoveElement(t, k).value.tree))
  }

  lemma RemovalKeepsOrderRight<V>(t: Tree<V>, k: int)
    requires t.Node? && k > t.key && RemovalKeepsOrder(t.right, k)
    ensures RemovalKeepsOrder(t, k)
  {
    assert Keys(t) == Keys(t.left) + {t.key} + Keys(t.right);
  }

  lemma RemovalKeepsOrderLeft<V>(t: Tree<V>, k: int)
    requires t.Node? && k < t.key && RemovalKeepsOrder(t.left, k)
    ensures RemovalKeepsOrder(t, k)
  {
    assert Keys(t) == Keys(t.left) + {t.key} + Keys(t.right);
  }

  lemma RemovalKeepsOrderOnlyRight<V>(t: Tree<V>)
    requires t.Node? && t.left.Nil? && t.right.Node?
    ensures RemovalKeepsOrder(t, t.key)
  {
    var c := t.right;
    var n := Node(Nil, c.key, t.value, t.height, c.right);
    if IsBST(t) {
      assert IsBST(c) && Keys(c) == Keys(c.left) + {c.key} + Keys(c.right);
      assert IsBST(n) && t.key !in Keys(n);
    }
  }

  lemma RemovalKeepsOrderOnlyLeft<V>(t: Tree<V>)
    requires t.Node? && t.left.Node? && t.right.Nil?
    ensures RemovalKeepsOrder(t, t.key)
  {
    var c := t.left;
    var n := Node(c.left, c.key, t.value, t.height, Nil);
    if IsBST(t) {
      assert IsBST(c) && Keys(c) == Keys(c.left) + {c.key} + Keys(c.right);
      assert IsBST(n) && t.key !in Keys(n);
    }
  }

  lemma RemovalKeepsOrderTwoChildren<V>(t: Tree<V>)
    requires t.Node? && t.left.Node? && t.right.Node?
    requires RemovalKeepsOrder(t.left, FindBiggest(t.left).value)
    ensures RemovalKeepsOrder(t, t.key)
  {
    var e := FindBiggest(t.left).value;
    var sub := RemoveElement(t.left, e);
    if IsBST(t) {
      assert IsBST(t.left);
      if sub.Ok? {
        var n := Node(sub.value.tree, e, t.value, t.height, t.right);
        assert forall x :: x in Keys(sub.value.tree) ==> x < e;
        assert IsBST(n) && t.key !in Keys(n);
      }
    }
  }

  /**
   On a search tree, removal of a present key never reports it missing, and a
   successful removal yields a search tree without that key.
   */
  lemma {:induction false} RemoveElementKeepsSearchOrder<V>(t: Tree<V>, k: int)
    ensures IsBST(t) && k in Keys(t) ==> RemoveElement(t, k) != Err(NoSuchElement)
    ensures IsBST(t) && RemoveElement(t, k).Ok? ==>
      var out := RemoveElement(t, k).value;
      IsBST(out.tree) && k !in Keys(out.tree)
  {
    match t
    case Nil =>
    case Node(l, key, _, _, rt) =>
      if k > key {
        RemoveElementKeepsSearchOrder(rt, k);
        RemovalKeepsOrderRight(t, k);
      } else if k < key {
        RemoveElementKeepsSearchOrder(l, k);
        RemovalKeepsOrderLeft(t, k);
      } else if l.Nil? && rt.Nil? {
      } else if l.Nil? {
        RemovalKeepsOrderOnlyRight(t);
      } else if rt.Nil? {
        RemovalKeepsOrderOnlyLeft(t);
      } else {
        RemoveElementKeepsSearchOrder(l, FindBiggest(l).value);
        RemovalKeepsOrderTwoChildren(t);
      }
  }

  /**
   The node object the root handle points to once `removeElement` returns: the
   rebuilt subtree is discarded, so the handle keeps the original root node in
   whatever position the final rotation left it.
   */
  function RootHandle<V>(t: Tree<V>, out: Removal<V>): (h: Tree<V>)
    requires out.fate == PromotedLeft ==> out.tree.Node?
    requires out.fate == PromotedRight ==> out.tree.Node?
  {
    match out.fate
    case Kept => out.tree
    case PromotedLeft => out.tree.right
    case PromotedRight => out.tree.left
    case Detached => t
  }

  /**
   `remove`: run `removeElement` on the root, keep the root handle as it is,
   count one key off, and report whether the rebuilt subtree is non-null.
   */
  function Remove<V>(m: AvlMap<V>, k: int): (r: Result<(AvlMap<V>, bool)>)
    ensures k !in Keys(m.root) ==> r == Err(NoSuchElement)
    ensures IsBST(m.root) && k in Keys(m.root) ==> r != Err(NoSuchElement)
    ensures r.Err? ==> r.error == NoSuchElement || r.error == NullPointer
    ensures r.Ok? ==> k in Keys(m.root) && r.value.0.size == m.size - 1
    ensures r.Ok? ==> (!r.value.1 <==> m.root.Node? && m.root.left == Nil && m.root.right == Nil)
    ensures r.Ok? && !r.value.1 ==> r.value.0.root == m.root
    ensures r.Ok? ==> Keys(r.value.0.root) <= Keys(m.root)
    ensures r.Ok? && IsBST(m.root) ==> IsBST(r.value.0.root)
    ensures r.Ok? && r.value.1 && IsBST(m.root) ==> k !in Keys(r.value.0.root)
    ensures r.Ok? ==> SameValueAndHeight(r.value.0.root, m.root)
  {
    RemoveElementKeepsSearchOrder(m.root, k);
    var out :- RemoveElement(m.root, k);
    Ok((AvlMap(RootHandle(m.root, out), m.size - out.removed), out.tree.Node?))
  }

  // ---------------------------------------------------------------------------
  // Map-level properties
  // ---------------------------------------------------------------------------

  /** Adding a new key to a search tree: one more key, found with its value, nothing else changes. */
  lemma AddAbsentKey<V>(m: AvlMap<V>, k: int, v: V)
    requires IsBST(m.root) && k !in Keys(m.root)
    requires Add(m, k, v).Ok?
    ensures Add(m, k, v).value.1
    ensures var m' := Add(m, k, v).value.0;
      && m'.size == m.size + 1
      && Keys(m'.root) == Keys(m.root) + {k} && IsBST(m'.root)
      && GetElement(m'.root, k) == Some(v)
      && forall x :: x != k ==> GetElement(m'.root, x) == GetElement(m.root, x)
  {
    var m' := Add(m, k, v).value.0;
    AddElementBindings(m.root, k, v);
    GetFindsBinding(m'.root, k, v);
    forall x | x != k ensures GetElement(m'.root, x) == GetElement(m.root, x) {
      SameBindingsSameLookups(m'.root, m.root, x);
    }
  }

  /** Adding a key already present: nothing observable changes, and `add` still reports true. */
  lemma AddPresentKey<V>(m: AvlMap<V>, k: int, v: V)
    requires IsBST(m.root) && k in Keys(m.root)
    ensures Add(m, k, v).Ok? ==> Add(m, k, v).value.1
    ensures Add(m, k, v).Ok? ==>
      var m' := Add(m, k, v).value.0;
      && m'.size == m.size
      && Keys(m'.root) == Keys(m.root) && IsBST(m'.root)
      && forall x :: GetElement(m'.root, x) == GetElement(m.root, x)
  {
    if Add(m, k, v).Ok? {
      var m' := Add(m, k, v).value.0;
      AddElementBindings(m.root, k, v);
      forall x ensures GetElement(m'.root, x) == GetElement(m.root, x) {
        SameBindingsSameLookups(m'.root, m.root, x);
      }
    }
  }

  /** Removing the key of a one-node map: the counter drops to 0, yet the key is still found. */
  lemma RemoveOnlyKey<V>(k: int, v: V, h: int, size: int)
    ensures var m := AvlMap(Node(Nil, k, v, h, Nil), size);
      && Remove(m, k).Ok?
      && var (m', ok) := Remove(m, k).value;
      && !ok && m'.size == size - 1 && ExistsElement(m'.root, k)
  {
  }
}

=== FILE: outcomes.dfy ===
/**
 Failure-compatible result types shared by both containers.

 Each thrown Java exception of the containers becomes an `Err` carrying the
 exception's class; a Java `null` reference becomes `None`.
 */
module Outcomes {

  /** The exception classes the containers can throw. */
  datatype Exception =
    | NoSuchElement     // java.util.NoSuchElementException
    | NullPointer       // a dereference of a null reference
    | IllegalArgument   // java.lang.IllegalArgumentException
    | IndexOutOfBounds  // an array access outside the array
    | UnsatisfiedLink   // java.lang.UnsatisfiedLinkError, thrown by the maximum-node search

  /** A reference that may be null. */
  datatype Option<+T> = None | Some(value: T)

  /** Either a normal return value or the exception the call throws. */
  datatype Result<+T> = Ok(value: T) | Err(error: Exception) {

    predicate IsFailure() {
      Err?
    }

    function PropagateFailure<U>(): Result<U>
      requires Err?
    {
      Err(error)
    }

    function Extract(): T
      requires Ok?
    {
      value
    }
  }
}
